=== FILE: README.md ===
# parse_duration, modelled in Dafny

A model of `parse_duration` from `src/lib.rs`, the function that turns
free-form text such as `"1d 4h 23m 10s"` or `"2.5 hours"` into a
`std::time::Duration`. The function works in three stages:

1. It scans the input with the pattern `([\d\.]{1,})\s?([a-z])`. The pattern
   looks for a run of digits and dots, at most one white-space character, and
   one lower-case letter. `captures_iter` yields the matches left to right,
   without overlap.
2. It parses the run of each match as an `f32`. A run that is not a number
   ends the function with the error `"<run> should be a number"`.
3. It maps the captured letter to a unit, converts the number to seconds
   through the chain `days` → `hours` → `minutes` → `seconds`, and adds the
   result to a running total. A letter outside `d`, `h`, `m`, `s` ends the
   function with `"unknown unit: <letter>"`.

The model is functional. The scan is an explicit character-class scanner
(`Scanner.NextMatch`, `Scanner.Matches`), specified by a declarative
predicate for leftmost, non-overlapping scanning (`Scanner.IsLeftmostScan`)
that admits exactly one list of matches. Numbers are exact decimals
(`Number.Decimal`: mantissa and number of decimal places), so the model's
conversion multiplies exactly and truncates once per token, as
`Duration::from_secs(s as u64)` does. A duration is its number of whole
seconds: every duration the function builds comes from `from_secs`, so the
nanosecond part is always zero. Errors are a datatype that carries the
offending run or letter.

Files, in dependency order:

- `chars.dfy`: `Optional` (an option type) and `Chars` (the ASCII
  character classes of the pattern).
- `scanner.dfy`: `Scanner`, covering matches, the scan, the captured tokens
  and a loop that finds the next match.
- `token_lemmas.dfy`: `TokenLemmas`, the token list of an input built from
  parts (a leading token, leading text, a run that does not match).
- `number.dfy`: `Number`, the run-to-number step and Rust's float grammar
  restricted to digits and dots.
- `units.dfy`: `Units`, the unit match and the conversion chain.
- `parser.dfy`: `DurationParser`, the loop of `parse_duration`, its meaning as
  a sum of per-token truncations with first-error-wins, and input-shape laws.
- `layouts.dfy`: `Layouts`, inputs described piece by piece and `Walk`, which
  reads the result off such a description.
- `examples.dfy`: `Examples`, the test cases of `src/lib.rs` and edge cases of
  the pattern, each stated on the literal input of the test.

The pattern's `\s?` allows at most one white-space character between the
run and the letter; `Examples.TwoSpaces` shows that two spaces break the
token.

## Model

| member | source | states |
|---|---|---|
| Scanner.RunEnd | src/lib.rs:5 | the end of the maximal run of digits and dots from a position: every character before it is a digit or a dot, and the one at it is not |
| Scanner.IsMatch | src/lib.rs:5 | the language of the pattern: a non-empty run of digits and dots, at most one white-space character, one lower-case letter; `MatchRunIsMaximal` and `MatchUnique` state what follows from it |
| Scanner.MatchRunIsMaximal | src/lib.rs:5 | greedy `{1,}` never backtracks: the run of every match is the maximal run from its start |
| Scanner.MatchUnique | src/lib.rs:5 | at most one match starts at any position, so leftmost-first and leftmost-longest matching agree |
| Scanner.MatchFrom | src/lib.rs:5 | the attempt of the pattern at a digit or dot: a match that starts there, or the fact that no match starts there |
| Scanner.NextMatch | src/lib.rs:5-7 | the next match is a match at or after the scan position, and no match starts between the position and it; when there is none, no match starts anywhere from the position on |
| Scanner.Matches | src/lib.rs:7 | the scan satisfies the declarative leftmost, non-overlapping scan, resuming after each letter |
| Scanner.LeftmostScanUnique | src/lib.rs:7 | the declarative scan admits at most one list of matches |
| Scanner.MatchesCharacterized | src/lib.rs:7 | a list of matches is the leftmost scan of an input exactly when it is `Matches` |
| Scanner.IsLeftmostScan | src/lib.rs:7 | the declarative meaning of `captures_iter`: the leftmost match, then the leftmost match after its letter, until none is left; `LeftmostScanUnique` and `MatchesCharacterized` state that `Matches` is its one solution |
| Scanner.MatchesCons | src/lib.rs:7 | a scan that finds a match lists it first, then the scan that resumes after its letter |
| Scanner.NextMatchStartsRun | src/lib.rs:5-7 | scanning from the start of a run, the next match starts at the first character of a maximal run of digits and dots |
| Scanner.ScanStartsRuns | src/lib.rs:5-7 | every match of a leftmost scan that begins at the start of a run starts at the first character of a maximal run |
| Scanner.MatchesStartRuns | src/lib.rs:5-7 | every match the scan yields starts at the first character of a maximal run of digits and dots |
| Scanner.FindNext | src/lib.rs:5-7 | the loop that skips characters, measures a run and looks for an optional space and a letter finds exactly the next match |
| Scanner.TokenAt | src/lib.rs:8-11 | the captures of a match: a non-empty run of digits and dots (`cap[1]`) and a lower-case letter (`cap[2]`) |
| Scanner.TokensOf | src/lib.rs:7-11 | the captures of a list of matches, one token per match, in order, each a non-empty numeric run and a lower-case letter |
| Scanner.Tokens | src/lib.rs:7-11 | every token of an input has a non-empty run of digits and dots and a lower-case letter |
| TokenLemmas.MatchesShift | src/lib.rs:7 | the scan of text behind a prefix, started after the prefix, is the scan of that text, moved by the prefix length |
| TokenLemmas.TokensAfterPrefix | src/lib.rs:7 | the tokens found after a prefix are the tokens of the text that follows it |
| TokenLemmas.TokensOfCons | src/lib.rs:7 | taking off the first match takes off the first token |
| TokenLemmas.TokensSkipPrefix | src/lib.rs:5-7 | text without digits or dots in front of an input adds no token and removes none |
| TokenLemmas.TokensNoNumChar | src/lib.rs:5-7 | an input without digits or dots has no token |
| TokenLemmas.TokensLeadingToken | src/lib.rs:5-7 | an input that starts with a run and a lower-case letter has that token first, then the tokens of the rest: the scan resumes after the letter |
| TokenLemmas.TokensLeadingSpacedToken | src/lib.rs:5-7 | the same with one white-space character before the letter, which is not captured |
| TokenLemmas.TokensDeadRun | src/lib.rs:5-7 | a run followed by a character that is neither a lower-case letter nor one white-space character before a lower-case letter yields no token and is skipped whole |
| Number.ShiftedIsProduct | src/lib.rs:8 | appending `k` zero digits multiplies by `10^k` |
| Number.DigitsValueConcat | src/lib.rs:8 | the value of two digit strings one after the other is the first shifted by the length of the second, plus the second |
| Number.IndexOfDot | src/lib.rs:8 | the position of the first dot: no dot before it, a dot at it (or the end of the run) |
| Number.OnlyFirstDotSplits | src/lib.rs:8 | only the first dot of a run can have only digits before it |
| Number.NotFloatLiteral | src/lib.rs:8-10 | a run with a second dot, or a lone dot, is not a float literal |
| Number.ParseNumber | src/lib.rs:8-10 | `cap[1].parse::<f32>()` on exact decimals; `ParseNumberAccepts` states that it succeeds exactly on float literals, `ParseNumberWhole` and `PointNumber` what it reads |
| Number.ParseNumberAccepts | src/lib.rs:8-10 | the run parses exactly when it is a float literal (`Digit+`, `Digit+ . Digit*` or `Digit* . Digit+`), otherwise the function reports an invalid number |
| Number.FloatLiteralShape | src/lib.rs:8-10 | a run of digits and dots is a float literal exactly when it has at most one dot and at least one digit |
| Number.FloatLiteralDotted | src/lib.rs:8-10 | in a float literal with a dot, everything after the first dot is digits and the dot is not alone |
| Number.ParseNumberWhole | src/lib.rs:8 | a non-empty run of digits is read as that whole number |
| Number.PointParts | src/lib.rs:8 | digits, a dot and digits form a run of digits and dots whose first dot follows the first digits |
| Number.PointMantissa | src/lib.rs:8 | digits `a`, a dot and digits `b` are read as the digits of `a` and `b` together at `\|b\|` decimal places |
| Number.PointNumber | src/lib.rs:8 | digits `a`, a dot and digits `b`, with at least one digit, are read exactly as `a.b`: `a` shifted by `\|b\|` places plus `b`, at `\|b\|` places |
| Units.ResolveLetter | src/lib.rs:11-15 | a one-letter capture names a unit exactly when it is that unit's letter, so the word arms (`"day"`, `"hours"`, …) never fire |
| Units.ResolveUnknown | src/lib.rs:16 | a one-letter capture is an unknown unit exactly when it is none of `d`, `h`, `m`, `s` |
| Units.Resolve | src/lib.rs:11-16 | the match on the captured unit text with all twelve spellings; `ResolveLetter` and `ResolveUnknown` state its outcome on the one-letter captures the pattern yields |
| Units.DropDigitsIsFloor | src/lib.rs:36 | dropping `k` decimal digits is the floor of division by `10^k` |
| Units.SecondsIsFloor | src/lib.rs:35-37 | `seconds` keeps exactly the whole seconds of a non-negative number (the `as u64` cast truncates) |
| Units.ConvertTruncates | src/lib.rs:11-37 | each arm multiplies by its unit's factor (86400, 3600, 60, 1) and truncates once, at the end of the chain |
| Units.ConvertWhole | src/lib.rs:23-37 | a whole number of units converts without loss, to that number times the factor |
| Units.Seconds | src/lib.rs:35-37 | `seconds`: `SecondsIsFloor` states that it keeps exactly the whole seconds |
| Units.Minutes | src/lib.rs:31-33 | `minutes`: sixty times the value, handed to `seconds`; `ConvertTruncates` states the result |
| Units.Hours | src/lib.rs:27-29 | `hours`: sixty times the value, handed to `minutes`; `ConvertTruncates` states the result |
| Units.Days | src/lib.rs:23-25 | `days`: twenty-four times the value, handed to `hours`; `ConvertTruncates` states the result |
| Units.Convert | src/lib.rs:12-15 | the arm for each unit; `ConvertTruncates` states that it is the floor of the value times 86400, 3600, 60 or 1 |
| Units.Duration.Add | src/lib.rs:12-15 | `+=` on durations of whole seconds; `ThenOkAdd` and `AccumulateSums` state the sums it builds |
| DurationParser.ParseDurationLoop | src/lib.rs:4-21 | the loop over the scanner, with early returns on the two errors, computes `ParseDuration` |
| DurationParser.ParseDuration | src/lib.rs:4-21 | `parse_duration` itself, the loop over the tokens of the scan from a zero total; `ParseDurationSums` and `ParseDurationFirstError` state its result |
| DurationParser.TokenDuration | src/lib.rs:8-16 | one pass of the loop body: parse, resolve, convert; `TokenDurationMeaning` states when it succeeds, with what, and which error it reports |
| DurationParser.Accumulate | src/lib.rs:6-18 | the loop with its running total and early returns; `AccumulateSums` and `AccumulateFirstError` state its result |
| DurationParser.LoopStep | src/lib.rs:7-18 | one pass over the next match: that token's error, or the rest of the scan with the token's duration added to the total |
| DurationParser.LoopEnd | src/lib.rs:7-20 | when the scan finds no further match, the loop returns the total |
| DurationParser.TokenDurationMeaning | src/lib.rs:8-16 | one token succeeds exactly when its run is a float literal and its letter names a unit, and then it is worth its truncated value times the factor; otherwise it fails with the invalid-number error before the unknown-unit error |
| DurationParser.AccumulateSums | src/lib.rs:7-18 | the loop succeeds exactly when every token is valid, and then adds the per-token truncations to the starting total |
| DurationParser.AccumulateFirstError | src/lib.rs:7-16 | the loop returns the error of the first invalid token, whatever follows it |
| DurationParser.ParseDurationSums | src/lib.rs:4-21 | `parse_duration` succeeds exactly when every token is valid, with the sum of the tokens' truncated values times their factors |
| DurationParser.ParseDurationFirstError | src/lib.rs:7-16 | `parse_duration` reports the error of the first invalid token in scan order, and no partial total |
| DurationParser.NoTokensIsZero | src/lib.rs:6-20 | an input in which the pattern finds no match is a zero duration, not an error |
| DurationParser.NoNumCharIsZero | src/lib.rs:6-20 | in particular, an input without digits or dots is a zero duration |
| DurationParser.AccumulateStep | src/lib.rs:12-15 | one successful pass moves the first token's duration into the total |
| DurationParser.ThenOkAdd | src/lib.rs:12-15 | adding two durations one after the other is adding their sum |
| DurationParser.AccumulateFrom | src/lib.rs:6-18 | starting from a non-zero total only adds that total to a success and leaves errors as they are |
| DurationParser.AccumulateCons | src/lib.rs:7-18 | a list of tokens gives the first token's result, then the result of the rest |
| DurationParser.ParseDurationLeadingToken | src/lib.rs:5-18 | an input that starts with a token gives that token's result, then the result of the rest of the input |
| DurationParser.ParseDurationLeadingSpacedToken | src/lib.rs:5-18 | the same with one white-space character between run and letter |
| DurationParser.WhitespaceOptional | src/lib.rs:5 | one white-space character between number and unit changes nothing |
| DurationParser.UnitWordIgnored | src/lib.rs:5-15 | the rest of a unit word after its letter changes nothing: `1d`, `1 day` and `1 days` agree |
| DurationParser.LeadingTextIgnored | src/lib.rs:5-7 | text without digits or dots in front of an input changes nothing |
| DurationParser.DeadRunIgnored | src/lib.rs:5-7 | a run not followed by a unit is skipped whole: `12 3d` is `3d` |
| Layouts.PieceStep | src/lib.rs:5-18 | one piece of a well-formed layout contributes its token's result, or nothing for text and runs without a unit |
| Layouts.Walk | src/lib.rs:4-21 | a well-formed layout parses to the results of its token pieces, in order |
| Examples.TokenOf | src/lib.rs:8-15 | a token whose run reads as `x` and whose letter names `u` is worth `u`'s conversion of `x` |
| Examples.WholeToken | src/lib.rs:8-15 | a whole number and a unit letter are worth that number of units |
| Examples.PointToken | src/lib.rs:8-15 | digits, a dot, digits and a unit letter are worth that unit's conversion of the exact decimal |
| Examples.UnknownToken | src/lib.rs:16 | a whole number and a letter that names no unit fail with that letter |
| Examples.ZeroPointFiveDays | src/lib.rs:8-15 | the token `0.5d` is worth exactly 43200 seconds |
| Examples.TwoPointFiveDays | src/lib.rs:8-15 | the token `2.5d` is worth exactly 216000 seconds |
| Examples.ZeroPointFiveHours | src/lib.rs:8-15 | the token `0.5h` is worth exactly 1800 seconds |
| Examples.TwoPointFiveHours | src/lib.rs:8-15 | the token `2.5h` is worth exactly 9000 seconds |
| Examples.ZeroPointFiveMinutes | src/lib.rs:8-15 | the token `0.5m` is worth exactly 30 seconds |
| Examples.TwoPointFiveMinutes | src/lib.rs:8-15 | the token `2.5m` is worth exactly 150 seconds |
| Examples.DayWord | src/lib.rs:46 | `"1 day"` parses to `Ok(Days(1))` |
| Examples.DayLetter | src/lib.rs:47 | `"1d"` parses to `Ok(Days(1))` |
| Examples.DaysWord | src/lib.rs:48 | `"1 days"` parses to `Ok(Days(1))` |
| Examples.TwoDays | src/lib.rs:49 | `"2 days"` parses to `Ok(Days(2))` |
| Examples.HalfDay | src/lib.rs:50 | `"0.5 day"` parses to `Ok(Hours(12))` |
| Examples.TwoAndAHalfDays | src/lib.rs:51 | `"2.5 days"` parses to `Ok(Hours(60))` |
| Examples.HourWord | src/lib.rs:57 | `"1 hour"` parses to `Ok(Hours(1))` |
| Examples.HourLetter | src/lib.rs:58 | `"1h"` parses to `Ok(Hours(1))` |
| Examples.HalfHourWord | src/lib.rs:59 | `"0.5 hours"` parses to `Ok(Minutes(30))` |
| Examples.HalfHourLetter | src/lib.rs:60 | `"0.5h"` parses to `Ok(Minutes(30))` |
| Examples.TwoHours | src/lib.rs:61 | `"2 hours"` parses to `Ok(Hours(2))` |
| Examples.TwoAndAHalfHoursWord | src/lib.rs:62 | `"2.5 hours"` parses to `Ok(Minutes(150))` |
| Examples.TwoAndAHalfHoursLetter | src/lib.rs:63 | `"2.5h"` parses to `Ok(Minutes(150))` |
| Examples.SeventyTwoHours | src/lib.rs:64 | `"72h"` parses to `Ok(Hours(72))` |
| Examples.MinuteWord | src/lib.rs:70 | `"1 minute"` parses to `Ok(Minutes(1))` |
| Examples.MinuteLetter | src/lib.rs:71 | `"1m"` parses to `Ok(Minutes(1))` |
| Examples.HalfMinuteWord | src/lib.rs:72 | `"0.5 minutes"` parses to `Ok(Seconds(30))` |
| Examples.HalfMinuteLetter | src/lib.rs:73 | `"0.5m"` parses to `Ok(Seconds(30))` |
| Examples.TwoMinutes | src/lib.rs:74 | `"2 minutes"` parses to `Ok(Minutes(2))` |
| Examples.TwoAndAHalfMinutesWord | src/lib.rs:75 | `"2.5 minute"` parses to `Ok(Seconds(150))` |
| Examples.TwoAndAHalfMinutesLetter | src/lib.rs:76 | `"2.5m"` parses to `Ok(Seconds(150))` |
| Examples.HundredFiftyMinutes | src/lib.rs:77 | `"150m"` parses to `Ok(Minutes(150))` |
| Examples.SecondWord | src/lib.rs:83 | `"1 second"` parses to `Ok(Seconds(1))` |
| Examples.SecondLetter | src/lib.rs:84 | `"1s"` parses to `Ok(Seconds(1))` |
| Examples.TwoSeconds | src/lib.rs:85 | `"2 seconds"` parses to `Ok(Seconds(2))` |
| Examples.HourInSeconds | src/lib.rs:86 | `"3600s"` parses to `Ok(Hours(1))` |
| Examples.MixedWords | src/lib.rs:92-95 | `"1 day 4 hours 23 minutes 10 seconds"` parses to `Ok(Seconds(102190))` |
| Examples.MixedLetters | src/lib.rs:96 | `"1d 4h 23m 10s"` parses to `Ok(Seconds(102190))` |
| Examples.HoursWordThenSeconds | src/lib.rs:97 | `"4hours 10s"` parses to `Ok(Seconds(14410))` |
| Examples.DayThenHoursWord | src/lib.rs:98 | `"1d 4 hours"` parses to `Ok(Seconds(100800))` |
| Examples.MinutesThenSeconds | src/lib.rs:99 | `"23 minutes 59 seconds"` parses to `Ok(Seconds(1439))` |
| Examples.Empty | src/lib.rs:5-7 | `""` parses to `Ok(Zero)` |
| Examples.NoNumber | src/lib.rs:5-7 | `"soon"` parses to `Ok(Zero)` |
| Examples.UpperCaseUnit | src/lib.rs:5 | `"5H"` parses to `Ok(Zero)` |
| Examples.TwoSpaces | src/lib.rs:5 | `"5  h"` parses to `Ok(Zero)` |
| Examples.NumberWithoutUnit | src/lib.rs:5-7 | `"12 3d"` parses to `Ok(Days(3))` |
| Examples.AdjacentTokens | src/lib.rs:5-7 | `"1d2h"` parses to `Ok(Seconds(93600))` |
| Examples.UnknownLetter | src/lib.rs:16 | `"5z"` parses to `Err(UnknownUnit("z"))` |
| Examples.ExponentIsUnit | src/lib.rs:16 | `"1e5s"` parses to `Err(UnknownUnit("e"))` |
| Examples.TwoDots | src/lib.rs:8-10 | `"1.2.3d"` parses to `Err(InvalidNumber("1.2.3"))` |
| Examples.LoneDot | src/lib.rs:8-10 | `".s"` parses to `Err(InvalidNumber("."))` |
| Examples.FirstErrorWins | src/lib.rs:7-16 | `"1d 2x 1.2.3s"` parses to `Err(UnknownUnit("x"))` |

## Left out

- Floating point: the run is read as an exact decimal, not an `f32` (src/lib.rs:8), and `d * 24.0`, `h * 60.0` and `m * 60.0` (src/lib.rs:24, 28, 32) are exact products. `f32` rounding can lower a token's result by a second even for short decimals. In single-precision arithmetic `0.7d` comes to 60479.996 seconds, so the source gives 60479 s where the model gives 60480 s. The tests' inputs are all exact in `f32`.
- `as u64` saturation (src/lib.rs:36): the model does not saturate. A token worth more than `u64::MAX` seconds keeps its exact value, where `as u64` caps it at `u64::MAX` (as it also does for a run so long that `f32` parsing gives infinity). Negative values cannot arise, because the run holds no sign.
- Overflow of `Duration +=` (src/lib.rs:12-15): the addition panics on overflow. The model adds unbounded naturals.
- Unicode classes: `\d` and `\s` also match non-ASCII digits and white space in the regex crate. The model's classes are ASCII only.
- The regex crate itself (src/lib.rs:5): the pattern is modelled directly as a scanner and a declarative scan. `Regex::new(…).unwrap()` cannot fail for this fixed pattern.
- The error texts: `"<run> should be a number"` and `"unknown unit: <letter>"` become `InvalidNumber(run)` and `UnknownUnit(letter)`.
- Rust's float grammar beyond digits and dots (signs, exponents, `inf`, `nan`): a captured run holds only digits and dots, so those forms cannot occur.
- Nanoseconds: every duration comes from `Duration::from_secs`, so only whole seconds are modelled.
- The test module (src/lib.rs:39-102) is modelled only as the example lemmas above. `assert_eq!` compares durations, and the examples state equality of the model's durations.

=== FILE: chars.dfy ===
/** An optional value, used wherever a step of the parser may find nothing. */
module Optional {

  datatype Option<+T> = None | Some(value: T)
}

/**
 * The character classes the token pattern `([\d\.]{1,})\s?([a-z])` is built from,
 * restricted to ASCII.
 */
module Chars {

  /** `\d`: an ASCII decimal digit. */
  predicate IsDigit(c: char) {
    '0' <= c <= '9'
  }

  /** `[\d\.]`: a character that can belong to the numeric run of a token. */
  predicate IsNumChar(c: char) {
    IsDigit(c) || c == '.'
  }

  /** `\s`: ASCII white space (tab, line feed, vertical tab, form feed, carriage return, space). */
  predicate IsSpace(c: char) {
    ('\t' <= c <= '\r') || c == ' '
  }

  /** `[a-z]`: a lower-case ASCII letter, the only thing a unit can start with. */
  predicate IsLower(c: char) {
    'a' <= c <= 'z'
  }

  /** True iff no character of `s` can belong to a numeric run. */
  predicate NoNumChar(s: string) {
    forall k :: 0 <= k < |s| ==> !IsNumChar(s[k])
  }

  /** True iff every character of `s` can belong to a numeric run. */
  predicate AllNumChars(s: string) {
    forall k :: 0 <= k < |s| ==> IsNumChar(s[k])
  }
}

=== FILE: examples.dfy ===
/**
 * The examples of the repository's test module (`src/lib.rs`, lines 44-101),
 * and edge cases of the token pattern, as facts about the model. Each
 * expected value is written with the model's own `Days`, `Hours`, `Minutes`
 * and `Seconds`, as the tests write it with `days`, `hours`, `minutes` and
 * `seconds`.
 *
 * Every example describes its input as a layout of pieces whose text is
 * the input (`Text`), shows that the layout is well formed (`Shape`) and
 * what its tokens add up to (`Value`), and concludes with `Walk`. Going
 * through the layout keeps each proof to a few small steps: evaluating
 * `ParseDuration` on a long literal input directly is beyond the solver.
 */
module Examples {
  import opened Chars
  import opened Optional
  import opened Scanner
  import opened Number
  import opened Units
  import opened DurationParser
  import opened Layouts

  // ----- Single tokens -----

  /** A token whose run reads as `x` and whose letter names `u`. */
  lemma TokenOf(t: Token, x: Decimal, u: Unit)
    requires AllNumChars(t.run) && ParseNumber(t.run) == Some(x) && t.letter == Letter(u)
    ensures TokenDuration(t) == Ok(Convert(u, x))
  {
    ResolveLetter(t.letter, u);
  }

  /** A whole number and a unit letter. */
  lemma WholeToken(r: string, c: char, u: Unit)
    requires |r| > 0 && AllDigits(r) && c == Letter(u)
    ensures AllNumChars(r)
    ensures TokenDuration(Token(r, c)) == Ok(Convert(u, Decimal(DigitsValue(r), 0)))
  {
    ParseNumberWhole(r);
    TokenOf(Token(r, c), Decimal(DigitsValue(r), 0), u);
  }

  /** Digits `a`, a point and digits `b`, worth `z` at `k` decimal places, and a unit letter. */
  lemma PointToken(a: string, b: string, c: char, u: Unit, z: nat, k: nat)
    requires AllDigits(a) && AllDigits(b) && |a| + |b| > 0
    requires z == Shifted(DigitsValue(a), |b|) + DigitsValue(b) && k == |b|
    requires c == Letter(u)
    ensures AllNumChars(a + ['.'] + b)
    ensures TokenDuration(Token(a + ['.'] + b, c)) == Ok(Convert(u, Decimal(z, k)))
  {
    PointNumber(a, b);
    TokenOf(Token(a + ['.'] + b, c), Decimal(z, k), u);
  }

  /** A whole number and a letter that names no unit. */
  lemma UnknownToken(r: string, c: char)
    requires |r| > 0 && AllDigits(r) && IsLower(c)
    requires c != 'd' && c != 'h' && c != 'm' && c != 's'
    ensures AllNumChars(r)
    ensures TokenDuration(Token(r, c)) == Err(UnknownUnit([c]))
  {
    ParseNumberWhole(r);
    ResolveUnknown(c);
  }

  // ----- The tokens with a point that the tests use -----

  /** `0.5d` is 43200 seconds. */
  lemma ZeroPointFiveDays()
    ensures TokenDuration(Token("0.5", 'd')) == Ok(Duration(43200))
  {
    assert "0" + ['.'] + "5" == "0.5";
    PointToken("0", "5", 'd', Day, 5, 1);
  }

  /** `2.5d` is 216000 seconds. */
  lemma TwoPointFiveDays()
    ensures TokenDuration(Token("2.5", 'd')) == Ok(Duration(216000))
  {
    assert "2" + ['.'] + "5" == "2.5";
    PointToken("2", "5", 'd', Day, 25, 1);
  }

  /** `0.5h` is 1800 seconds. */
  lemma ZeroPointFiveHours()
    ensures TokenDuration(Token("0.5", 'h')) == Ok(Duration(1800))
  {
    assert "0" + ['.'] + "5" == "0.5";
    PointToken("0", "5", 'h', Hour, 5, 1);
  }

  /** `2.5h` is 9000 seconds. */
  lemma TwoPointFiveHours()
    ensures TokenDuration(Token("2.5", 'h')) == Ok(Duration(9000))
  {
    assert "2" + ['.'] + "5" == "2.5";
    PointToken("2", "5", 'h', Hour, 25, 1);
  }

  /** `0.5m` is 30 seconds. */
  lemma ZeroPointFiveMinutes()
    ensures TokenDuration(Token("0.5", 'm')) == Ok(Duration(30))
  {
    assert "0" + ['.'] + "5" == "0.5";
    PointToken("0", "5", 'm', Minute, 5, 1);
  }

  /** `2.5m` is 150 seconds. */
  lemma TwoPointFiveMinutes()
    ensures TokenDuration(Token("2.5", 'm')) == Ok(Duration(150))
  {
    assert "2" + ['.'] + "5" == "2.5";
    PointToken("2", "5", 'm', Minute, 25, 1);
  }

  // ----- parse_day, lines 45-53 -----

  const DayWordLayout: seq<Piece> := [TokenPiece("1", true, 'd'), TextPiece("ay")]

  lemma DayWordText()
    ensures Render(DayWordLayout, 0) == "1 day"
  {
  }

  lemma DayWordShape()
    ensures WellFormed(DayWordLayout, 0)
  {
  }

  lemma DayWordValue()
    ensures Expected(DayWordLayout, 0) == Ok(Days(Decimal(1, 0)))
  {
    WholeToken("1", 'd', Day);
    assert TokenDuration(Token("1", 'd')) == Ok(Duration(86400));
  }

  lemma DayWord()
    ensures ParseDuration("1 day") == Ok(Days(Decimal(1, 0)))
  {
    DayWordText();
    DayWordShape();
    Walk(DayWordLayout, 0);
    DayWordValue();
  }

  const DayLetterLayout: seq<Piece> := [TokenPiece("1", false, 'd')]

  lemma DayLetterText()
    ensures Render(DayLetterLayout, 0) == "1d"
  {
  }

  lemma DayLetterShape()
    ensures WellFormed(DayLetterLayout, 0)
  {
  }

  lemma DayLetterValue()
    ensures Expected(DayLetterLayout, 0) == Ok(Days(Decimal(1, 0)))
  {
    WholeToken("1", 'd', Day);
    assert TokenDuration(Token("1", 'd')) == Ok(Duration(86400));
  }

  lemma DayLetter()
    ensures ParseDuration("1d") == Ok(Days(Decimal(1, 0)))
  {
    DayLetterText();
    DayLetterShape();
    Walk(DayLetterLayout, 0);
    DayLetterValue();
  }

  const DaysWordLayout: seq<Piece> := [TokenPiece("1", true, 'd'), TextPiece("ays")]

  lemma DaysWordText()
    ensures Render(DaysWordLayout, 0) == "1 days"
  {
  }

  lemma DaysWordShape()
    ensures WellFormed(DaysWordLayout, 0)
  {
  }

  lemma DaysWordValue()
    ensures Expected(DaysWordLayout, 0) == Ok(Days(Decimal(1, 0)))
  {
    WholeToken("1", 'd', Day);
    assert TokenDuration(Token("1", 'd')) == Ok(Duration(86400));
  }

  lemma DaysWord()
    ensures ParseDuration("1 days") == Ok(Days(Decimal(1, 0)))
  {
    DaysWordText();
    DaysWordShape();
    Walk(DaysWordLayout, 0);
    DaysWordValue();
  }

  const TwoDaysLayout: seq<Piece> := [TokenPiece("2", true, 'd'), TextPiece("ays")]

  lemma TwoDaysText()
    ensures Render(TwoDaysLayout, 0) == "2 days"
  {
  }

  lemma TwoDaysShape()
    ensures WellFormed(TwoDaysLayout, 0)
  {
  }

  lemma TwoDaysValue()
    ensures Expected(TwoDaysLayout, 0) == Ok(Days(Decimal(2, 0)))
  {
    WholeToken("2", 'd', Day);
    assert TokenDuration(Token("2", 'd')) == Ok(Duration(172800));
  }

  lemma TwoDays()
    ensures ParseDuration("2 days") == Ok(Days(Decimal(2, 0)))
  {
    TwoDaysText();
    TwoDaysShape();
    Walk(TwoDaysLayout, 0);
    TwoDaysValue();
  }

  const HalfDayLayout: seq<Piece> := [TokenPiece("0.5", true, 'd'), TextPiece("ay")]

  lemma HalfDayText()
    ensures Render(HalfDayLayout, 0) == "0.5 day"
  {
  }

  lemma HalfDayShape()
    ensures WellFormed(HalfDayLayout, 0)
  {
  }

  lemma HalfDayValue()
    ensures Expected(HalfDayLayout, 0) == Ok(Hours(Decimal(12, 0)))
  {
    ZeroPointFiveDays();
  }

  lemma HalfDay()
    ensures ParseDuration("0.5 day") == Ok(Hours(Decimal(12, 0)))
  {
    HalfDayText();
    HalfDayShape();
    Walk(HalfDayLayout, 0);
    HalfDayValue();
  }

  const TwoAndAHalfDaysLayout: seq<Piece> := [TokenPiece("2.5", true, 'd'), TextPiece("ays")]

  lemma TwoAndAHalfDaysText()
    ensures Render(TwoAndAHalfDaysLayout, 0) == "2.5 days"
  {
  }

  lemma TwoAndAHalfDaysShape()
    ensures WellFormed(TwoAndAHalfDaysLayout, 0)
  {
  }

  lemma TwoAndAHalfDaysValue()
    ensures Expected(TwoAndAHalfDaysLayout, 0) == Ok(Hours(Decimal(60, 0)))
  {
    TwoPointFiveDays();
  }

  lemma TwoAndAHalfDays()
    ensures ParseDuration("2.5 days") == Ok(Hours(Decimal(60, 0)))
  {
    TwoAndAHalfDaysText();
    TwoAndAHalfDaysShape();
    Walk(TwoAndAHalfDaysLayout, 0);
    TwoAndAHalfDaysValue();
  }

  // ----- parse_hour, lines 56-66 -----

  const HourWordLayout: seq<Piece> := [TokenPiece("1", true, 'h'), TextPiece("our")]

  lemma HourWordText()
    ensures Render(HourWordLayout, 0) == "1 hour"
  {
  }

  lemma HourWordShape()
    ensures WellFormed(HourWordLayout, 0)
  {
  }

  lemma HourWordValue()
    ensures Expected(HourWordLayout, 0) == Ok(Hours(Decimal(1, 0)))
  {
    WholeToken("1", 'h', Hour);
    assert TokenDuration(Token("1", 'h')) == Ok(Duration(3600));
  }

  lemma HourWord()
    ensures ParseDuration("1 hour") == Ok(Hours(Decimal(1, 0)))
  {
    HourWordText();
    HourWordShape();
    Walk(HourWordLayout, 0);
    HourWordValue();
  }

  const HourLetterLayout: seq<Piece> := [TokenPiece("1", false, 'h')]

  lemma HourLetterText()
    ensures Render(HourLetterLayout, 0) == "1h"
  {
  }

  lemma HourLetterShape()
    ensures WellFormed(HourLetterLayout, 0)
  {
  }

  lemma HourLetterValue()
    ensures Expected(HourLetterLayout, 0) == Ok(Hours(Decimal(1, 0)))
  {
    WholeToken("1", 'h', Hour);
    assert TokenDuration(Token("1", 'h')) == Ok(Duration(3600));
  }

  lemma HourLetter()
    ensures ParseDuration("1h") == Ok(Hours(Decimal(1, 0)))
  {
    HourLetterText();
    HourLetterShape();
    Walk(HourLetterLayout, 0);
    HourLetterValue();
  }

  const HalfHourWordLayout: seq<Piece> := [TokenPiece("0.5", true, 'h'), TextPiece("ours")]

  lemma HalfHourWordText()
    ensures Render(HalfHourWordLayout, 0) == "0.5 hours"
  {
  }

  lemma HalfHourWordShape()
    ensures WellFormed(HalfHourWordLayout, 0)
  {
  }

  lemma HalfHourWordValue()
    ensures Expected(HalfHourWordLayout, 0) == Ok(Minutes(Decimal(30, 0)))
  {
    ZeroPointFiveHours();
  }

  lemma HalfHourWord()
    ensures ParseDuration("0.5 hours") == Ok(Minutes(Decimal(30, 0)))
  {
    HalfHourWordText();
    HalfHourWordShape();
    Walk(HalfHourWordLayout, 0);
    HalfHourWordValue();
  }

  const HalfHourLetterLayout: seq<Piece> := [TokenPiece("0.5", false, 'h')]

  lemma HalfHourLetterText()
    ensures Render(HalfHourLetterLayout, 0) == "0.5h"
  {
  }

  lemma HalfHourLetterShape()
    ensures WellFormed(HalfHourLetterLayout, 0)
  {
  }

  lemma HalfHourLetterValue()
    ensures Expected(HalfHourLetterLayout, 0) == Ok(Minutes(Decimal(30, 0)))
  {
    ZeroPointFiveHours();
  }

  lemma HalfHourLetter()
    ensures ParseDuration("0.5h") == Ok(Minutes(Decimal(30, 0)))
  {
    HalfHourLetterText();
    HalfHourLetterShape();
    Walk(HalfHourLetterLayout, 0);
    HalfHourLetterValue();
  }

  const TwoHoursLayout: seq<Piece> := [TokenPiece("2", true, 'h'), TextPiece("ours")]

  lemma TwoHoursText()
    ensures Render(TwoHoursLayout, 0) == "2 hours"
  {
  }

  lemma TwoHoursShape()
    ensures WellFormed(TwoHoursLayout, 0)
  {
  }

  lemma TwoHoursValue()
    ensures Expected(TwoHoursLayout, 0) == Ok(Hours(Decimal(2, 0)))
  {
    WholeToken("2", 'h', Hour);
    assert TokenDuration(Token("2", 'h')) == Ok(Duration(7200));
  }

  lemma TwoHours()
    ensures ParseDuration("2 hours") == Ok(Hours(Decimal(2, 0)))
  {
    TwoHoursText();
    TwoHoursShape();
    Walk(TwoHoursLayout, 0);
    TwoHoursValue();
  }

  const TwoAndAHalfHoursWordLayout: seq<Piece> := [TokenPiece("2.5", true, 'h'), TextPiece("ours")]

  lemma TwoAndAHalfHoursWordText()
    ensures Render(TwoAndAHalfHoursWordLayout, 0) == "2.5 hours"
  {
  }

  lemma TwoAndAHalfHoursWordShape()
    ensures WellFormed(TwoAndAHalfHoursWordLayout, 0)
  {
  }

  lemma TwoAndAHalfHoursWordValue()
    ensures Expected(TwoAndAHalfHoursWordLayout, 0) == Ok(Minutes(Decimal(150, 0)))
  {
    TwoPointFiveHours();
  }

  lemma TwoAndAHalfHoursWord()
    ensures ParseDuration("2.5 hours") == Ok(Minutes(Decimal(150, 0)))
  {
    TwoAndAHalfHoursWordText();
    TwoAndAHalfHoursWordShape();
    Walk(TwoAndAHalfHoursWordLayout, 0);
    TwoAndAHalfHoursWordValue();
  }

  const TwoAndAHalfHoursLetterLayout: seq<Piece> := [TokenPiece("2.5", false, 'h')]

  lemma TwoAndAHalfHoursLetterText()
    ensures Render(TwoAndAHalfHoursLetterLayout, 0) == "2.5h"
  {
  }

  lemma TwoAndAHalfHoursLetterShape()
    ensures WellFormed(TwoAndAHalfHoursLetterLayout, 0)
  {
  }

  lemma TwoAndAHalfHoursLetterValue()
    ensures Expected(TwoAndAHalfHoursLetterLayout, 0) == Ok(Minutes(Decimal(150, 0)))
  {
    TwoPointFiveHours();
  }

  lemma TwoAndAHalfHoursLetter()
    ensures ParseDuration("2.5h") == Ok(Minutes(Decimal(150, 0)))
  {
    TwoAndAHalfHoursLetterText();
    TwoAndAHalfHoursLetterShape();
    Walk(TwoAndAHalfHoursLetterLayout, 0);
    TwoAndAHalfHoursLetterValue();
  }

  const SeventyTwoHoursLayout: seq<Piece> := [TokenPiece("72", false, 'h')]

  lemma SeventyTwoHoursText()
    ensures Render(SeventyTwoHoursLayout, 0) == "72h"
  {
  }

  lemma SeventyTwoHoursShape()
    ensures WellFormed(SeventyTwoHoursLayout, 0)
  {
  }

  lemma SeventyTwoHoursValue()
    ensures Expected(SeventyTwoHoursLayout, 0) == Ok(Hours(Decimal(72, 0)))
  {
    WholeToken("72", 'h', Hour);
    assert "72"[..1] == "7";
    assert TokenDuration(Token("72", 'h')) == Ok(Duration(259200));
  }

  lemma SeventyTwoHours()
    ensures ParseDuration("72h") == Ok(Hours(Decimal(72, 0)))
  {
    SeventyTwoHoursText();
    SeventyTwoHoursShape();
    Walk(SeventyTwoHoursLayout, 0);
    SeventyTwoHoursValue();
  }

  // ----- parse_minute, lines 69-79 -----

  const MinuteWordLayout: seq<Piece> := [TokenPiece("1", true, 'm'), TextPiece("inute")]

  lemma MinuteWordText()
    ensures Render(MinuteWordLayout, 0) == "1 minute"
  {
  }

  lemma MinuteWordShape()
    ensures WellFormed(MinuteWordLayout, 0)
  {
  }

  lemma MinuteWordValue()
    ensures Expected(MinuteWordLayout, 0) == Ok(Minutes(Decimal(1, 0)))
  {
    WholeToken("1", 'm', Minute);
    assert TokenDuration(Token("1", 'm')) == Ok(Duration(60));
  }

  lemma MinuteWord()
    ensures ParseDuration("1 minute") == Ok(Minutes(Decimal(1, 0)))
  {
    MinuteWordText();
    MinuteWordShape();
    Walk(MinuteWordLayout, 0);
    MinuteWordValue();
  }

  const MinuteLetterLayout: seq<Piece> := [TokenPiece("1", false, 'm')]

  lemma MinuteLetterText()
    ensures Render(MinuteLetterLayout, 0) == "1m"
  {
  }

  lemma MinuteLetterShape()
    ensures WellFormed(MinuteLetterLayout, 0)
  {
  }

  lemma MinuteLetterValue()
    ensures Expected(MinuteLetterLayout, 0) == Ok(Minutes(Decimal(1, 0)))
  {
    WholeToken("1", 'm', Minute);
    assert TokenDuration(Token("1", 'm')) == Ok(Duration(60));
  }

  lemma MinuteLetter()
    ensures ParseDuration("1m") == Ok(Minutes(Decimal(1, 0)))
  {
    MinuteLetterText();
    MinuteLetterShape();
    Walk(MinuteLetterLayout, 0);
    MinuteLetterValue();
  }

  const HalfMinuteWordLayout: seq<Piece> := [TokenPiece("0.5", true, 'm'), TextPiece("inutes")]

  lemma HalfMinuteWordText()
    ensures Render(HalfMinuteWordLayout, 0) == "0.5 minutes"
  {
  }

  lemma HalfMinuteWordShape()
    ensures WellFormed(HalfMinuteWordLayout, 0)
  {
  }

  lemma HalfMinuteWordValue()
    ensures Expected(HalfMinuteWordLayout, 0) == Ok(Seconds(Decimal(30, 0)))
  {
    ZeroPointFiveMinutes();
  }

  lemma HalfMinuteWord()
    ensures ParseDuration("0.5 minutes") == Ok(Seconds(Decimal(30, 0)))
  {
    HalfMinuteWordText();
    HalfMinuteWordShape();
    Walk(HalfMinuteWordLayout, 0);
    HalfMinuteWordValue();
  }

  const HalfMinuteLetterLayout: seq<Piece> := [TokenPiece("0.5", false, 'm')]

  lemma HalfMinuteLetterText()
    ensures Render(HalfMinuteLetterLayout, 0) == "0.5m"
  {
  }

  lemma HalfMinuteLetterShape()
    ensures WellFormed(HalfMinuteLetterLayout, 0)
  {
  }

  lemma HalfMinuteLetterValue()
    ensures Expected(HalfMinuteLetterLayout, 0) == Ok(Seconds(Decimal(30, 0)))
  {
    ZeroPointFiveMinutes();
  }

  lemma HalfMinuteLetter()
    ensures ParseDuration("0.5m") == Ok(Seconds(Decimal(30, 0)))
  {
    HalfMinuteLetterText();
    HalfMinuteLetterShape();
    Walk(HalfMinuteLetterLayout, 0);
    HalfMinuteLetterValue();
  }

  const TwoMinutesLayout: seq<Piece> := [TokenPiece("2", true, 'm'), TextPiece("inutes")]

  lemma TwoMinutesText()
    ensures Render(TwoMinutesLayout, 0) == "2 minutes"
  {
  }

  lemma TwoMinutesShape()
    ensures WellFormed(TwoMinutesLayout, 0)
  {
  }

  lemma TwoMinutesValue()
    ensures Expected(TwoMinutesLayout, 0) == Ok(Minutes(Decimal(2, 0)))
  {
    WholeToken("2", 'm', Minute);
    assert TokenDuration(Token("2", 'm')) == Ok(Duration(120));
  }

  lemma TwoMinutes()
    ensures ParseDuration("2 minutes") == Ok(Minutes(Decimal(2, 0)))
  {
    TwoMinutesText();
    TwoMinutesShape();
    Walk(TwoMinutesLayout, 0);
    TwoMinutesValue();
  }

  const TwoAndAHalfMinutesWordLayout: seq<Piece> := [TokenPiece("2.5", true, 'm'), TextPiece("inute")]

  lemma TwoAndAHalfMinutesWordText()
    ensures Render(TwoAndAHalfMinutesWordLayout, 0) == "2.5 minute"
  {
  }

  lemma TwoAndAHalfMinutesWordShape()
    ensures WellFormed(TwoAndAHalfMinutesWordLayout, 0)
  {
  }

  lemma TwoAndAHalfMinutesWordValue()
    ensures Expected(TwoAndAHalfMinutesWordLayout, 0) == Ok(Seconds(Decimal(150, 0)))
  {
    TwoPointFiveMinutes();
  }

  lemma TwoAndAHalfMinutesWord()
    ensures ParseDuration("2.5 minute") == Ok(Seconds(Decimal(150, 0)))
  {
    TwoAndAHalfMinutesWordText();
    TwoAndAHalfMinutesWordShape();
    Walk(TwoAndAHalfMinutesWordLayout, 0);
    TwoAndAHalfMinutesWordValue();
  }

  const TwoAndAHalfMinutesLetterLayout: seq<Piece> := [TokenPiece("2.5", false, 'm')]

  lemma TwoAndAHalfMinutesLetterText()
    ensures Render(TwoAndAHalfMinutesLetterLayout, 0) == "2.5m"
  {
  }

  lemma TwoAndAHalfMinutesLetterShape()
    ensures WellFormed(TwoAndAHalfMinutesLetterLayout, 0)
  {
  }

  lemma TwoAndAHalfMinutesLetterValue()
    ensures Expected(TwoAndAHalfMinutesLetterLayout, 0) == Ok(Seconds(Decimal(150, 0)))
  {
    TwoPointFiveMinutes();
  }

  lemma TwoAndAHalfMinutesLetter()
    ensures ParseDuration("2.5m") == Ok(Seconds(Decimal(150, 0)))
  {
    TwoAndAHalfMinutesLetterText();
    TwoAndAHalfMinutesLetterShape();
    Walk(TwoAndAHalfMinutesLetterLayout, 0);
    TwoAndAHalfMinutesLetterValue();
  }

  const HundredFiftyMinutesLayout: seq<Piece> := [TokenPiece("150", false, 'm')]

  lemma HundredFiftyMinutesText()
    ensures Render(HundredFiftyMinutesLayout, 0) == "150m"
  {
  }

  lemma HundredFiftyMinutesShape()
    ensures WellFormed(HundredFiftyMinutesLayout, 0)
  {
  }

  lemma HundredFiftyMinutesValue()
    ensures Expected(HundredFiftyMinutesLayout, 0) == Ok(Minutes(Decimal(150, 0)))
  {
    WholeToken("150", 'm', Minute);
    assert "150"[..2] == "15";
    assert "15"[..1] == "1";
    assert TokenDuration(Token("150", 'm')) == Ok(Duration(9000));
  }

  lemma HundredFiftyMinutes()
    ensures ParseDuration("150m") == Ok(Minutes(Decimal(150, 0)))
  {
    HundredFiftyMinutesText();
    HundredFiftyMinutesShape();
    Walk(HundredFiftyMinutesLayout, 0);
    HundredFiftyMinutesValue();
  }

  // ----- parse_second, lines 82-88 -----

  const SecondWordLayout: seq<Piece> := [TokenPiece("1", true, 's'), TextPiece("econd")]

  lemma SecondWordText()
    ensures Render(SecondWordLayout, 0) == "1 second"
  {
  }

  lemma SecondWordShape()
    ensures WellFormed(SecondWordLayout, 0)
  {
  }

  lemma SecondWordValue()
    ensures Expected(SecondWordLayout, 0) == Ok(Seconds(Decimal(1, 0)))
  {
    WholeToken("1", 's', Second);
    assert TokenDuration(Token("1", 's')) == Ok(Duration(1));
  }

  lemma SecondWord()
    ensures ParseDuration("1 second") == Ok(Seconds(Decimal(1, 0)))
  {
    SecondWordText();
    SecondWordShape();
    Walk(SecondWordLayout, 0);
    SecondWordValue();
  }

  const SecondLetterLayout: seq<Piece> := [TokenPiece("1", false, 's')]

  lemma SecondLetterText()
    ensures Render(SecondLetterLayout, 0) == "1s"
  {
  }

  lemma SecondLetterShape()
    ensures WellFormed(SecondLetterLayout, 0)
  {
  }

  lemma SecondLetterValue()
    ensures Expected(SecondLetterLayout, 0) == Ok(Seconds(Decimal(1, 0)))
  {
    WholeToken("1", 's', Second);
    assert TokenDuration(Token("1", 's')) == Ok(Duration(1));
  }

  lemma SecondLetter()
    ensures ParseDuration("1s") == Ok(Seconds(Decimal(1, 0)))
  {
    SecondLetterText();
    SecondLetterShape();
    Walk(SecondLetterLayout, 0);
    SecondLetterValue();
  }

  const TwoSecondsLayout: seq<Piece> := [TokenPiece("2", true, 's'), TextPiece("econds")]

  lemma TwoSecondsText()
    ensures Render(TwoSecondsLayout, 0) == "2 seconds"
  {
  }

  lemma TwoSecondsShape()
    ensures WellFormed(TwoSecondsLayout, 0)
  {
  }

  lemma TwoSecondsValue()
    ensures Expected(TwoSecondsLayout, 0) == Ok(Seconds(Decimal(2, 0)))
  {
    WholeToken("2", 's', Second);
    assert TokenDuration(Token("2", 's')) == Ok(Duration(2));
  }

  lemma TwoSeconds()
    ensures ParseDuration("2 seconds") == Ok(Seconds(Decimal(2, 0)))
  {
    TwoSecondsText();
    TwoSecondsShape();
    Walk(TwoSecondsLayout, 0);
    TwoSecondsValue();
  }

  const HourInSecondsLayout: seq<Piece> := [TokenPiece("3600", false, 's')]

  lemma HourInSecondsText()
    ensures Render(HourInSecondsLayout, 0) == "3600s"
  {
  }

  lemma HourInSecondsShape()
    ensures WellFormed(HourInSecondsLayout, 0)
  {
  }

  lemma HourInSecondsValue()
    ensures Expected(HourInSecondsLayout, 0) == Ok(Hours(Decimal(1, 0)))
  {
    WholeToken("3600", 's', Second);
    assert "3600"[..3] == "360";
    assert "360"[..2] == "36";
    assert "36"[..1] == "3";
    assert TokenDuration(Token("3600", 's')) == Ok(Duration(3600));
  }

  lemma HourInSeconds()
    ensures ParseDuration("3600s") == Ok(Hours(Decimal(1, 0)))
  {
    HourInSecondsText();
    HourInSecondsShape();
    Walk(HourInSecondsLayout, 0);
    HourInSecondsValue();
  }

  // ----- parse_mixed_duration, lines 91-101 -----

  const MixedWordsLayout: seq<Piece> := [TokenPiece("1", true, 'd'), TextPiece("ay "), TokenPiece("4", true, 'h'), TextPiece("ours "), TokenPiece("23", true, 'm'), TextPiece("inutes "), TokenPiece("10", true, 's'), TextPiece("econds")]

  lemma MixedWordsText()
    ensures Render(MixedWordsLayout, 0) == "1 day 4 hours 23 minutes 10 seconds"
  {
  }

  lemma MixedWordsShape()
    ensures WellFormed(MixedWordsLayout, 0)
  {
    assert WellFormed(MixedWordsLayout, 6);
    assert WellFormed(MixedWordsLayout, 4);
    assert WellFormed(MixedWordsLayout, 2);
  }

  lemma MixedWordsValueFrom6()
    ensures Expected(MixedWordsLayout, 6) == Ok(Duration(10))
  {
    WholeToken("10", 's', Second);
    assert "10"[..1] == "1";
    assert TokenDuration(Token("10", 's')) == Ok(Duration(10));
  }

  lemma MixedWordsValueFrom4()
    ensures Expected(MixedWordsLayout, 4) == Ok(Duration(1390))
  {
    WholeToken("23", 'm', Minute);
    assert "23"[..1] == "2";
    assert TokenDuration(Token("23", 'm')) == Ok(Duration(1380));
    MixedWordsValueFrom6();
  }

  lemma MixedWordsValueFrom2()
    ensures Expected(MixedWordsLayout, 2) == Ok(Duration(15790))
  {
    WholeToken("4", 'h', Hour);
    assert TokenDuration(Token("4", 'h')) == Ok(Duration(14400));
    MixedWordsValueFrom4();
  }

  lemma MixedWordsValue()
    ensures Expected(MixedWordsLayout, 0) == Ok(Seconds(Decimal(102190, 0)))
  {
    WholeToken("1", 'd', Day);
    assert TokenDuration(Token("1", 'd')) == Ok(Duration(86400));
    MixedWordsValueFrom2();
  }

  lemma MixedWords()
    ensures ParseDuration("1 day 4 hours 23 minutes 10 seconds") == Ok(Seconds(Decimal(102190, 0)))
  {
    MixedWordsText();
    MixedWordsShape();
    Walk(MixedWordsLayout, 0);
    MixedWordsValue();
  }

  const MixedLettersLayout: seq<Piece> := [TokenPiece("1", false, 'd'), TextPiece(" "), TokenPiece("4", false, 'h'), TextPiece(" "), TokenPiece("23", false, 'm'), TextPiece(" "), TokenPiece("10", false, 's')]

  lemma MixedLettersText()
    ensures Render(MixedLettersLayout, 0) == "1d 4h 23m 10s"
  {
  }

  lemma MixedLettersShape()
    ensures WellFormed(MixedLettersLayout, 0)
  {
    assert WellFormed(MixedLettersLayout, 5);
    assert WellFormed(MixedLettersLayout, 3);
    assert WellFormed(MixedLettersLayout, 1);
  }

  lemma MixedLettersValueFrom6()
    ensures Expected(MixedLettersLayout, 6) == Ok(Duration(10))
  {
    WholeToken("10", 's', Second);
    assert "10"[..1] == "1";
    assert TokenDuration(Token("10", 's')) == Ok(Duration(10));
  }

  lemma MixedLettersValueFrom4()
    ensures Expected(MixedLettersLayout, 4) == Ok(Duration(1390))
  {
    WholeToken("23", 'm', Minute);
    assert "23"[..1] == "2";
    assert TokenDuration(Token("23", 'm')) == Ok(Duration(1380));
    MixedLettersValueFrom6();
  }

  lemma MixedLettersValueFrom2()
    ensures Expected(MixedLettersLayout, 2) == Ok(Duration(15790))
  {
    WholeToken("4", 'h', Hour);
    assert TokenDuration(Token("4", 'h')) == Ok(Duration(14400));
    MixedLettersValueFrom4();
  }

  lemma MixedLettersValue()
    ensures Expected(MixedLettersLayout, 0) == Ok(Seconds(Decimal(102190, 0)))
  {
    WholeToken("1", 'd', Day);
    assert TokenDuration(Token("1", 'd')) == Ok(Duration(86400));
    MixedLettersValueFrom2();
  }

  lemma MixedLetters()
    ensures ParseDuration("1d 4h 23m 10s") == Ok(Seconds(Decimal(102190, 0)))
  {
    MixedLettersText();
    MixedLettersShape();
    Walk(MixedLettersLayout, 0);
    MixedLettersValue();
  }

  const HoursWordThenSecondsLayout: seq<Piece> := [TokenPiece("4", false, 'h'), TextPiece("ours "), TokenPiece("10", false, 's')]

  lemma HoursWordThenSecondsText()
    ensures Render(HoursWordThenSecondsLayout, 0) == "4hours 10s"
  {
  }

  lemma HoursWordThenSecondsShape()
    ensures WellFormed(HoursWordThenSecondsLayout, 0)
  {
  }

  lemma HoursWordThenSecondsValue()
    ensures Expected(HoursWordThenSecondsLayout, 0) == Ok(Seconds(Decimal(14410, 0)))
  {
    WholeToken("4", 'h', Hour);
    assert TokenDuration(Token("4", 'h')) == Ok(Duration(14400));
    WholeToken("10", 's', Second);
    assert "10"[..1] == "1";
    assert TokenDuration(Token("10", 's')) == Ok(Duration(10));
    assert Expected(HoursWordThenSecondsLayout, 2) == Ok(Duration(10));
  }

  lemma HoursWordThenSeconds()
    ensures ParseDuration("4hours 10s") == Ok(Seconds(Decimal(14410, 0)))
  {
    HoursWordThenSecondsText();
    HoursWordThenSecondsShape();
    Walk(HoursWordThenSecondsLayout, 0);
    HoursWordThenSecondsValue();
  }

  const DayThenHoursWordLayout: seq<Piece> := [TokenPiece("1", false, 'd'), TextPiece(" "), TokenPiece("4", true, 'h'), TextPiece("ours")]

  lemma DayThenHoursWordText()
    ensures Render(DayThenHoursWordLayout, 0) == "1d 4 hours"
  {
  }

  lemma DayThenHoursWordShape()
    ensures WellFormed(DayThenHoursWordLayout, 0)
  {
    assert WellFormed(DayThenHoursWordLayout, 2);
  }

  lemma DayThenHoursWordValue()
    ensures Expected(DayThenHoursWordLayout, 0) == Ok(Seconds(Decimal(100800, 0)))
  {
    WholeToken("1", 'd', Day);
    assert TokenDuration(Token("1", 'd')) == Ok(Duration(86400));
    WholeToken("4", 'h', Hour);
    assert TokenDuration(Token("4", 'h')) == Ok(Duration(14400));
    assert Expected(DayThenHoursWordLayout, 2) == Ok(Duration(14400));
  }

  lemma DayThenHoursWord()
    ensures ParseDuration("1d 4 hours") == Ok(Seconds(Decimal(100800, 0)))
  {
    DayThenHoursWordText();
    DayThenHoursWordShape();
    Walk(DayThenHoursWordLayout, 0);
    DayThenHoursWordValue();
  }

  const MinutesThenSecondsLayout: seq<Piece> := [TokenPiece("23", true, 'm'), TextPiece("inutes "), TokenPiece("59", true, 's'), TextPiece("econds")]

  lemma MinutesThenSecondsText()
    ensures Render(MinutesThenSecondsLayout, 0) == "23 minutes 59 seconds"
  {
  }

  lemma MinutesThenSecondsShape()
    ensures WellFormed(MinutesThenSecondsLayout, 0)
  {
    assert WellFormed(MinutesThenSecondsLayout, 2);
  }

  lemma MinutesThenSecondsValue()
    ensures Expected(MinutesThenSecondsLayout, 0) == Ok(Seconds(Decimal(1439, 0)))
  {
    WholeToken("23", 'm', Minute);
    assert "23"[..1] == "2";
    assert TokenDuration(Token("23", 'm')) == Ok(Duration(1380));
    WholeToken("59", 's', Second);
    assert "59"[..1] == "5";
    assert TokenDuration(Token("59", 's')) == Ok(Duration(59));
    assert Expected(MinutesThenSecondsLayout, 2) == Ok(Duration(59));
  }

  lemma MinutesThenSeconds()
    ensures ParseDuration("23 minutes 59 seconds") == Ok(Seconds(Decimal(1439, 0)))
  {
    MinutesThenSecondsText();
    MinutesThenSecondsShape();
    Walk(MinutesThenSecondsLayout, 0);
    MinutesThenSecondsValue();
  }

  // ----- Edge cases of the token pattern -----

  const EmptyLayout: seq<Piece> := []

  lemma EmptyText()
    ensures Render(EmptyLayout, 0) == ""
  {
  }

  lemma EmptyShape()
    ensures WellFormed(EmptyLayout, 0)
  {
  }

  lemma EmptyValue()
    ensures Expected(EmptyLayout, 0) == Ok(Zero)
  {
  }

  /** No digit or dot: no token, a zero duration. */
  lemma Empty()
    ensures ParseDuration("") == Ok(Zero)
  {
    EmptyText();
    EmptyShape();
    Walk(EmptyLayout, 0);
    EmptyValue();
  }

  const NoNumberLayout: seq<Piece> := [TextPiece("soon")]

  lemma NoNumberText()
    ensures Render(NoNumberLayout, 0) == "soon"
  {
  }

  lemma NoNumberShape()
    ensures WellFormed(NoNumberLayout, 0)
  {
  }

  lemma NoNumberValue()
    ensures Expected(NoNumberLayout, 0) == Ok(Zero)
  {
  }

  lemma NoNumber()
    ensures ParseDuration("soon") == Ok(Zero)
  {
    NoNumberText();
    NoNumberShape();
    Walk(NoNumberLayout, 0);
    NoNumberValue();
  }

  const UpperCaseUnitLayout: seq<Piece> := [DeadPiece("5", 'H')]

  lemma UpperCaseUnitText()
    ensures Render(UpperCaseUnitLayout, 0) == "5H"
  {
  }

  lemma UpperCaseUnitShape()
    ensures WellFormed(UpperCaseUnitLayout, 0)
  {
  }

  lemma UpperCaseUnitValue()
    ensures Expected(UpperCaseUnitLayout, 0) == Ok(Zero)
  {
  }

  /** The unit must be a lower-case letter: `5H` has no token. */
  lemma UpperCaseUnit()
    ensures ParseDuration("5H") == Ok(Zero)
  {
    UpperCaseUnitText();
    UpperCaseUnitShape();
    Walk(UpperCaseUnitLayout, 0);
    UpperCaseUnitValue();
  }

  const TwoSpacesLayout: seq<Piece> := [DeadPiece("5", ' '), TextPiece(" h")]

  lemma TwoSpacesText()
    ensures Render(TwoSpacesLayout, 0) == "5  h"
  {
  }

  lemma TwoSpacesShape()
    ensures WellFormed(TwoSpacesLayout, 0)
  {
  }

  lemma TwoSpacesValue()
    ensures Expected(TwoSpacesLayout, 0) == Ok(Zero)
  {
  }

  /** At most one white-space character between number and unit: `5  h` has no token. */
  lemma TwoSpaces()
    ensures ParseDuration("5  h") == Ok(Zero)
  {
    TwoSpacesText();
    TwoSpacesShape();
    Walk(TwoSpacesLayout, 0);
    TwoSpacesValue();
  }

  const NumberWithoutUnitLayout: seq<Piece> := [DeadPiece("12", ' '), TokenPiece("3", false, 'd')]

  lemma NumberWithoutUnitText()
    ensures Render(NumberWithoutUnitLayout, 0) == "12 3d"
  {
  }

  lemma NumberWithoutUnitShape()
    ensures WellFormed(NumberWithoutUnitLayout, 0)
  {
  }

  lemma NumberWithoutUnitValue()
    ensures Expected(NumberWithoutUnitLayout, 0) == Ok(Days(Decimal(3, 0)))
  {
    WholeToken("3", 'd', Day);
    assert TokenDuration(Token("3", 'd')) == Ok(Duration(259200));
  }

  /** A number without a unit is skipped: `12 3d` is three days. */
  lemma NumberWithoutUnit()
    ensures ParseDuration("12 3d") == Ok(Days(Decimal(3, 0)))
  {
    NumberWithoutUnitText();
    NumberWithoutUnitShape();
    Walk(NumberWithoutUnitLayout, 0);
    NumberWithoutUnitValue();
  }

  const AdjacentTokensLayout: seq<Piece> := [TokenPiece("1", false, 'd'), TokenPiece("2", false, 'h')]

  lemma AdjacentTokensText()
    ensures Render(AdjacentTokensLayout, 0) == "1d2h"
  {
  }

  lemma AdjacentTokensShape()
    ensures WellFormed(AdjacentTokensLayout, 0)
  {
  }

  lemma AdjacentTokensValue()
    ensures Expected(AdjacentTokensLayout, 0) == Ok(Seconds(Decimal(93600, 0)))
  {
    WholeToken("1", 'd', Day);
    assert TokenDuration(Token("1", 'd')) == Ok(Duration(86400));
    WholeToken("2", 'h', Hour);
    assert TokenDuration(Token("2", 'h')) == Ok(Duration(7200));
    assert Expected(AdjacentTokensLayout, 1) == Ok(Duration(7200));
  }

  /** Tokens need no separator: `1d2h` is a day and two hours. */
  lemma AdjacentTokens()
    ensures ParseDuration("1d2h") == Ok(Seconds(Decimal(93600, 0)))
  {
    AdjacentTokensText();
    AdjacentTokensShape();
    Walk(AdjacentTokensLayout, 0);
    AdjacentTokensValue();
  }

  const UnknownLetterLayout: seq<Piece> := [TokenPiece("5", false, 'z')]

  lemma UnknownLetterText()
    ensures Render(UnknownLetterLayout, 0) == "5z"
  {
  }

  lemma UnknownLetterShape()
    ensures WellFormed(UnknownLetterLayout, 0)
  {
  }

  lemma UnknownLetterValue()
    ensures Expected(UnknownLetterLayout, 0) == Err(UnknownUnit("z"))
  {
    UnknownToken("5", 'z');
  }

  /** A letter that names no unit. */
  lemma UnknownLetter()
    ensures ParseDuration("5z") == Err(UnknownUnit("z"))
  {
    UnknownLetterText();
    UnknownLetterShape();
    Walk(UnknownLetterLayout, 0);
    UnknownLetterValue();
  }

  const ExponentIsUnitLayout: seq<Piece> := [TokenPiece("1", false, 'e'), TokenPiece("5", false, 's')]

  lemma ExponentIsUnitText()
    ensures Render(ExponentIsUnitLayout, 0) == "1e5s"
  {
  }

  lemma ExponentIsUnitShape()
    ensures WellFormed(ExponentIsUnitLayout, 0)
  {
  }

  lemma ExponentIsUnitValue()
    ensures Expected(ExponentIsUnitLayout, 0) == Err(UnknownUnit("e"))
  {
    UnknownToken("1", 'e');
    WholeToken("5", 's', Second);
    assert TokenDuration(Token("5", 's')) == Ok(Duration(5));
  }

  /** No exponents: in `1e5s` the letter `e` is the unit. */
  lemma ExponentIsUnit()
    ensures ParseDuration("1e5s") == Err(UnknownUnit("e"))
  {
    ExponentIsUnitText();
    ExponentIsUnitShape();
    Walk(ExponentIsUnitLayout, 0);
    ExponentIsUnitValue();
  }

  const TwoDotsLayout: seq<Piece> := [TokenPiece("1.2.3", false, 'd')]

  lemma TwoDotsText()
    ensures Render(TwoDotsLayout, 0) == "1.2.3d"
  {
  }

  lemma TwoDotsShape()
    ensures WellFormed(TwoDotsLayout, 0)
  {
  }

  lemma TwoDotsValue()
    ensures Expected(TwoDotsLayout, 0) == Err(InvalidNumber("1.2.3"))
  {
    assert "1.2.3"[2..][1] == '.';
  }

  /** A run with two dots is not a number. */
  lemma TwoDots()
    ensures ParseDuration("1.2.3d") == Err(InvalidNumber("1.2.3"))
  {
    TwoDotsText();
    TwoDotsShape();
    Walk(TwoDotsLayout, 0);
    TwoDotsValue();
  }

  const LoneDotLayout: seq<Piece> := [TokenPiece(".", false, 's')]

  lemma LoneDotText()
    ensures Render(LoneDotLayout, 0) == ".s"
  {
  }

  lemma LoneDotShape()
    ensures WellFormed(LoneDotLayout, 0)
  {
  }

  lemma LoneDotValue()
    ensures Expected(LoneDotLayout, 0) == Err(InvalidNumber("."))
  {
  }

  /** A lone dot is not a number. */
  lemma LoneDot()
    ensures ParseDuration(".s") == Err(InvalidNumber("."))
  {
    LoneDotText();
    LoneDotShape();
    Walk(LoneDotLayout, 0);
    LoneDotValue();
  }

  const FirstErrorWinsLayout: seq<Piece> := [TokenPiece("1", false, 'd'), TextPiece(" "), TokenPiece("2", false, 'x'), TextPiece(" "), TokenPiece("1.2.3", false, 's')]

  lemma FirstErrorWinsText()
    ensures Render(FirstErrorWinsLayout, 0) == "1d 2x 1.2.3s"
  {
  }

  lemma FirstErrorWinsShape()
    ensures WellFormed(FirstErrorWinsLayout, 0)
  {
    assert WellFormed(FirstErrorWinsLayout, 3);
    assert WellFormed(FirstErrorWinsLayout, 1);
  }

  lemma FirstErrorWinsValue()
    ensures Expected(FirstErrorWinsLayout, 0) == Err(UnknownUnit("x"))
  {
    WholeToken("1", 'd', Day);
    assert TokenDuration(Token("1", 'd')) == Ok(Duration(86400));
    UnknownToken("2", 'x');
  }

  /** The first error in scan order is the one reported. */
  lemma FirstErrorWins()
    ensures ParseDuration("1d 2x 1.2.3s") == Err(UnknownUnit("x"))
  {
    FirstErrorWinsText();
    FirstErrorWinsShape();
    Walk(FirstErrorWinsLayout, 0);
    FirstErrorWinsValue();
  }
}

=== FILE: layouts.dfy ===
/**
 * Inputs described piece by piece: a token (a run, an optional space, a
 * unit letter), text without digits or dots, or a run followed by a
 * character that cannot start a unit. `Walk` reads the result of
 * `parse_duration` off such a description, one piece at a time, with the
 * input-shape lemmas of `DurationParser`.
 */
module Layouts {
  import opened Chars
  import opened Scanner
  import opened Units
  import opened DurationParser

  /** A stretch of an input, as the scan sees it. */
  datatype Piece =
    | TokenPiece(run: string, spaced: bool, letter: char)  // a run, an optional space, a unit letter
    | TextPiece(text: string)                              // text without digits or dots
    | DeadPiece(run: string, next: char)                   // a run and a character that cannot start a unit

  function PieceText(p: Piece): string {
    match p
    case TokenPiece(r, spaced, c) => if spaced then r + [' ', c] else r + [c]
    case TextPiece(w) => w
    case DeadPiece(r, c) => r + [c]
  }

  /** The text of the pieces `ps[k..]`, one after the other. */
  function Render(ps: seq<Piece>, k: nat): string
    decreases |ps| - k
  {
    if k >= |ps| then [] else PieceText(ps[k]) + Render(ps, k + 1)
  }

  // `BlankFrom` and `NumericFrom` restate `NoNumChar` and `AllNumChars` recursively so
  // that the solver can evaluate them on a literal layout; the two lemmas below
  // turn them back into the quantified forms.

  /** `w[j..]` holds no digit and no dot, checked one character at a time. */
  predicate BlankFrom(w: string, j: nat)
    decreases |w| - j
  {
    j >= |w| || (!IsNumChar(w[j]) && BlankFrom(w, j + 1))
  }

  /** `r[j..]` is all digits and dots, checked one character at a time. */
  predicate NumericFrom(r: string, j: nat)
    decreases |r| - j
  {
    j >= |r| || (IsNumChar(r[j]) && NumericFrom(r, j + 1))
  }

  lemma {:induction false} BlankFromNoNumChar(w: string, j: nat)
    requires j <= |w| && BlankFrom(w, j)
    ensures forall k :: j <= k < |w| ==> !IsNumChar(w[k])
    decreases |w| - j
  {
    if j < |w| {
      BlankFromNoNumChar(w, j + 1);
    }
  }

  lemma {:induction false} NumericFromAll(r: string, j: nat)
    requires j <= |r| && NumericFrom(r, j)
    ensures forall k :: j <= k < |r| ==> IsNumChar(r[k])
    decreases |r| - j
  {
    if j < |r| {
      NumericFromAll(r, j + 1);
    }
  }

  /** The text of `p` starts with a lower-case letter. */
  predicate StartsLower(p: Piece) {
    |PieceText(p)| > 0 && IsLower(PieceText(p)[0])
  }

  /**
   * The piece `ps[k]` is what it claims to be where it stands: a token's run
   * is a non-empty run of digits and dots and its unit a lower-case letter;
   * text is non-empty and holds no digit or dot; a dead run is followed by a
   * character that neither extends the run nor is a unit, nor a white space
   * before a unit.
   */
  predicate PieceOk(ps: seq<Piece>, k: nat)
    requires k < |ps|
  {
    var p := ps[k];
    if p.TokenPiece? then |p.run| > 0 && NumericFrom(p.run, 0) && IsLower(p.letter)
    else if p.TextPiece? then |p.text| > 0 && BlankFrom(p.text, 0)
    else
      && |p.run| > 0 && NumericFrom(p.run, 0) && !IsNumChar(p.next) && !IsLower(p.next)
      && !(IsSpace(p.next) && k + 1 < |ps| && StartsLower(ps[k + 1]))
  }

  /** Every piece from `k` on is what it claims to be. */
  predicate WellFormed(ps: seq<Piece>, k: nat)
    decreases |ps| - k
  {
    k >= |ps| || (PieceOk(ps, k) && WellFormed(ps, k + 1))
  }

  /** The result of the piece `p` followed by text whose result is `rest`. */
  function Prepend(p: Piece, rest: Result<Duration>): Result<Duration> {
    match p
    case TokenPiece(r, _, c) =>
      if NumericFrom(r, 0) then
        NumericFromAll(r, 0);
        Then(TokenDuration(Token(r, c)), rest)
      else
        Err(InvalidNumber(r))
    case _ => rest
  }

  /** The result the pieces `ps[k..]` stand for: their tokens' results, in order. */
  function Expected(ps: seq<Piece>, k: nat): Result<Duration>
    decreases |ps| - k
  {
    if k >= |ps| then Ok(Zero) else Prepend(ps[k], Expected(ps, k + 1))
  }

  lemma RenderStart(ps: seq<Piece>, k: nat)
    requires WellFormed(ps, k)
    ensures k < |ps| ==> |Render(ps, k)| > 0 && Render(ps, k)[0] == PieceText(ps[k])[0]
    ensures k >= |ps| ==> Render(ps, k) == []
  {
  }

  /** One piece of a well-formed input, consumed. */
  lemma PieceStep(ps: seq<Piece>, k: nat)
    requires k < |ps| && WellFormed(ps, k)
    ensures ParseDuration(Render(ps, k)) == Prepend(ps[k], ParseDuration(Render(ps, k + 1)))
  {
    var t := Render(ps, k + 1);
    match ps[k]
    case TokenPiece(r, spaced, c) =>
      NumericFromAll(r, 0);
      if spaced {
        assert Render(ps, k) == r + [' ', c] + t;
        ParseDurationLeadingSpacedToken(r, ' ', c, t);
      } else {
        assert Render(ps, k) == r + [c] + t;
        ParseDurationLeadingToken(r, c, t);
      }
    case TextPiece(w) =>
      BlankFromNoNumChar(w, 0);
      LeadingTextIgnored(w, t);
    case DeadPiece(r, c) =>
      NumericFromAll(r, 0);
      RenderStart(ps, k + 1);
      assert Render(ps, k) == r + [c] + t;
      DeadRunIgnored(r, c, t);
  }

  /** A well-formed input parses to the results of its token pieces, in order. */
  lemma {:induction false} Walk(ps: seq<Piece>, k: nat)
    requires WellFormed(ps, k)
    ensures ParseDuration(Render(ps, k)) == Expected(ps, k)
    decreases |ps| - k
  {
    if k >= |ps| {
      NoNumCharIsZero([]);
    } else {
      PieceStep(ps, k);
      Walk(ps, k + 1);
    }
  }
}

=== FILE: number.dfy ===
/**
 * `cap[1].parse::<f32>()` on the numeric run of a token, with the number
 * kept as an exact decimal instead of an `f32`.
 */
module Number {
  import opened Chars
  import opened Optional

  /** The exact decimal number `mantissa / 10^scale`. */
  datatype Decimal = Decimal(mantissa: nat, scale: nat)

  function Pow10(k: nat): (r: nat)
    ensures r >= 1
  {
    if k == 0 then 1 else 10 * Pow10(k - 1)
  }

  predicate AllDigits(s: string) {
    forall k :: 0 <= k < |s| ==> IsDigit(s[k])
  }

  function DigitValue(c: char): nat {
    if IsDigit(c) then c as int - '0' as int else 0
  }

  /** The value of a string of decimal digits, most significant first (0 for the empty string). */
  function DigitsValue(s: string): nat
    decreases |s|
  {
    if |s| == 0 then 0 else 10 * DigitsValue(s[..|s| - 1]) + DigitValue(s[|s| - 1])
  }

  /** `x` followed by `k` zero digits. */
  function Shifted(x: nat, k: nat): nat {
    if k == 0 then x else 10 * Shifted(x, k - 1)
  }

  lemma TenTimes(x: nat, p: nat)
    ensures 10 * (x * p) == x * (10 * p)
  {
  }

  /** Shifting by `k` places is multiplying by `10^k`. */
  lemma {:induction false} ShiftedIsProduct(x: nat, k: nat)
    ensures Shifted(x, k) == x * Pow10(k)
  {
    if k > 0 {
      ShiftedIsProduct(x, k - 1);
      TenTimes(x, Pow10(k - 1));
    }
  }

  /** Reading digits `a` then digits `b` is reading `a`, shifting it `|b|` places, and adding `b`. */
  lemma {:induction false} DigitsValueConcat(a: string, b: string)
    ensures DigitsValue(a + b) == Shifted(DigitsValue(a), |b|) + DigitsValue(b)
    decreases |b|
  {
    if b == [] {
      assert a + b == a;
    } else {
      var b' := b[..|b| - 1];
      assert (a + b)[..|a + b| - 1] == a + b';
      assert (a + b)[|a + b| - 1] == b[|b| - 1];
      DigitsValueConcat(a, b');
    }
  }

  /** The number of decimal points in `s`. */
  function Dots(s: string): nat {
    multiset(s)['.']
  }

  /**
   * The grammar Rust's `f32` parser accepts, as far as it can apply to a run
   * of digits and dots: `Digit+`, `Digit+ '.' Digit*` or `Digit* '.' Digit+`
   * (signs, exponents, `inf` and `nan` need other characters).
   */
  ghost predicate IsFloatLiteral(run: string) {
    || (|run| > 0 && AllDigits(run))
    || (exists i :: 0 <= i < |run| && run[i] == '.' && AllDigits(run[..i]) && AllDigits(run[i + 1..]) && |run| > 1)
  }

  /** The position of the first decimal point of `s`, or `|s|` when there is none. */
  function IndexOfDot(s: string): (i: nat)
    ensures i <= |s|
    ensures forall k :: 0 <= k < i ==> s[k] != '.'
    ensures i < |s| ==> s[i] == '.'
  {
    if |s| == 0 || s[0] == '.' then 0 else 1 + IndexOfDot(s[1..])
  }

  /** A run of digits and dots without a dot is all digits. */
  lemma DotFreeRunIsDigits(s: string)
    requires AllNumChars(s)
    requires forall k :: 0 <= k < |s| ==> s[k] != '.'
    ensures AllDigits(s)
  {
  }

  /** Only the first dot of a run can split it into digits before and the rest after. */
  lemma OnlyFirstDotSplits(run: string, j: nat)
    requires j < |run| && run[j] == '.' && AllDigits(run[..j])
    ensures j == IndexOfDot(run)
  {
    assert forall k :: 0 <= k < j ==> run[k] == run[..j][k];
  }

  /** A run whose part after the first dot holds another dot, or a lone dot, is not a number. */
  lemma NotFloatLiteral(run: string)
    requires AllNumChars(run)
    requires IndexOfDot(run) < |run|
    requires !AllDigits(run[IndexOfDot(run) + 1..]) || |run| <= 1
    ensures !IsFloatLiteral(run)
  {
    var i := IndexOfDot(run);
    assert !IsDigit(run[i]);
    forall j | 0 <= j < |run| && run[j] == '.' && AllDigits(run[..j])
      ensures !AllDigits(run[j + 1..]) || |run| <= 1
    {
      OnlyFirstDotSplits(run, j);
    }
  }

  /** A run with one dot and digits on both sides is a number. */
  lemma DottedLiteral(run: string)
    requires AllNumChars(run)
    requires IndexOfDot(run) < |run|
    requires AllDigits(run[IndexOfDot(run) + 1..]) && |run| > 1
    ensures IsFloatLiteral(run)
  {
    DotFreeRunIsDigits(run[..IndexOfDot(run)]);
  }

  /**
   * Parses the numeric run of a token: the integer digits before the first
   * dot and the fraction digits after it; a second dot, or a run without any
   * digit, is not a number.
   */
  function ParseNumber(run: string): Option<Decimal>
    requires AllNumChars(run)
  {
    var i := IndexOfDot(run);
    if i == |run| then
      if |run| > 0 then Some(Decimal(DigitsValue(run), 0)) else None
    else if AllDigits(run[i + 1..]) && |run| > 1 then
      Some(Decimal(DigitsValue(run[..i] + run[i + 1..]), |run| - i - 1))
    else
      None
  }

  /** A run of digits and dots is read as a number exactly when it is a float literal. */
  lemma ParseNumberAccepts(run: string)
    requires AllNumChars(run)
    ensures ParseNumber(run).Some? <==> IsFloatLiteral(run)
  {
    var i := IndexOfDot(run);
    if i == |run| {
      DotFreeRunIsDigits(run);
    } else if AllDigits(run[i + 1..]) && |run| > 1 {
      DottedLiteral(run);
    } else {
      NotFloatLiteral(run);
    }
  }

  /** In a number with a dot, the part after the first dot is all digits, and the dot is not alone. */
  lemma FloatLiteralDotted(run: string)
    requires AllNumChars(run) && IsFloatLiteral(run) && IndexOfDot(run) < |run|
    ensures AllDigits(run[IndexOfDot(run) + 1..]) && |run| > 1
  {
    assert !IsDigit(run[IndexOfDot(run)]);
    var j :| 0 <= j < |run| && run[j] == '.' && AllDigits(run[..j]) && AllDigits(run[j + 1..]) && |run| > 1;
    OnlyFirstDotSplits(run, j);
  }

  /** A non-empty run of digits is read as that whole number. */
  lemma ParseNumberWhole(a: string)
    requires |a| > 0 && AllDigits(a)
    ensures AllNumChars(a)
    ensures ParseNumber(a) == Some(Decimal(DigitsValue(a), 0))
  {
    assert forall k :: 0 <= k < |a| ==> a[k] != '.';
  }

  /** A run with a dot at `i` and only digits around it is a run of digits and dots whose first dot is at `i`. */
  lemma PointRunChars(run: string, i: nat)
    requires i < |run| && run[i] == '.' && AllDigits(run[..i]) && AllDigits(run[i + 1..])
    ensures AllNumChars(run) && IndexOfDot(run) == i
  {
    forall k | 0 <= k < |run|
      ensures IsNumChar(run[k])
    {
      if k < i {
        assert run[k] == run[..i][k];
      } else if k > i {
        assert run[k] == run[i + 1..][k - i - 1];
      }
    }
    OnlyFirstDotSplits(run, i);
  }

  /** Digits `a`, a point and digits `b`: a run of digits and dots whose first dot follows `a`. */
  lemma PointParts(a: string, b: string)
    requires AllDigits(a) && AllDigits(b)
    ensures var run := a + ['.'] + b;
      AllNumChars(run) && IndexOfDot(run) == |a| && run[..|a|] == a && run[|a| + 1..] == b
  {
    var run := a + ['.'] + b;
    assert run[..|a|] == a;
    assert run[|a| + 1..] == b;
    PointRunChars(run, |a|);
  }

  /** Digits `a`, a point and digits `b` are read as the digits of `a` and `b` together, at `|b|` decimal places. */
  lemma PointMantissa(a: string, b: string)
    requires AllDigits(a) && AllDigits(b) && |a| + |b| > 0
    ensures AllNumChars(a + ['.'] + b)
    ensures ParseNumber(a + ['.'] + b) == Some(Decimal(DigitsValue(a + b), |b|))
  {
    PointParts(a, b);
  }

  /** The digits of `a` and `b` together, at `|b|` places, are `a` shifted `|b|` places plus `b`. */
  lemma MantissaSplit(a: string, b: string, z: Option<Decimal>)
    requires z == Some(Decimal(DigitsValue(a + b), |b|))
    ensures z == Some(Decimal(Shifted(DigitsValue(a), |b|) + DigitsValue(b), |b|))
  {
    DigitsValueConcat(a, b);
  }

  /**
   * Digits `a`, a point and digits `b`, with at least one digit, are read as
   * `a` shifted by the number of digits of `b`, plus `b`, at that many
   * decimal places: `a.b` exactly.
   */
  lemma PointNumber(a: string, b: string)
    requires AllDigits(a) && AllDigits(b) && |a| + |b| > 0
    ensures AllNumChars(a + ['.'] + b)
    ensures ParseNumber(a + ['.'] + b) == Some(Decimal(Shifted(DigitsValue(a), |b|) + DigitsValue(b), |b|))
  {
    PointMantissa(a, b);
    MantissaSplit(a, b, ParseNumber(a + ['.'] + b));
  }

  /**
   * For a run of digits and dots, being a number means holding at least one
   * digit and at most one dot.
   */
  lemma FloatLiteralShape(run: string)
    requires AllNumChars(run)
    ensures IsFloatLiteral(run) <==> Dots(run) <= 1 && Dots(run) < |run|
  {
    var i := IndexOfDot(run);
    if i == |run| {
      assert '.' !in multiset(run);
      DotFreeRunIsDigits(run);
    } else {
      var a, b := run[..i], run[i + 1..];
      assert run == a + ['.'] + b;
      assert multiset(run) == multiset(a) + multiset{'.'} + multiset(b);
      assert '.' !in multiset(a);
      assert Dots(run) == 1 + Dots(b);
      assert !AllDigits(run) by {
        assert !IsDigit(run[i]);
      }
      if Dots(b) == 0 {
        assert forall k :: 0 <= k < |b| ==> b[k] != '.' by {
          forall k | 0 <= k < |b|
            ensures b[k] != '.'
          {
            assert b[k] in multiset(b);
          }
        }
        DotFreeRunIsDigits(a);
        DotFreeRunIsDigits(b);
      } else {
        assert !AllDigits(b) by {
          assert '.' in multiset(b);
          var k :| 0 <= k < |b| && b[k] == '.';
        }
      }
      if IsFloatLiteral(run) {
        FloatLiteralDotted(run);
      }
    }
  }
}

=== FILE: parser.dfy ===
/**
 * `parse_duration`: scan the input for tokens, parse each numeric run,
 * resolve each unit letter, convert and add, stopping at the first error.
 */
module DurationParser {
  import opened Chars
  import opened Optional
  import opened Scanner
  import opened TokenLemmas
  import opened Number
  import opened Units

  /** The two ways `parse_duration` fails, each carrying the offending text. */
  datatype ParseError =
    | InvalidNumber(run: string)  // "<run> should be a number"
    | UnknownUnit(unit: string)   // "unknown unit: <unit>"

  datatype Result<+T> = Ok(value: T) | Err(error: ParseError)

  /** A list of tokens whose numeric runs hold only digits and dots, as every captured list does. */
  predicate NumericRuns(ts: seq<Token>) {
    forall i :: 0 <= i < |ts| ==> AllNumChars(ts[i].run)
  }

  /** One pass of the loop body: parse the run, then resolve the unit, then convert. */
  function TokenDuration(t: Token): Result<Duration>
    requires AllNumChars(t.run)
  {
    match ParseNumber(t.run)
    case None => Err(InvalidNumber(t.run))
    case Some(x) =>
      match Resolve([t.letter])
      case None => Err(UnknownUnit([t.letter]))
      case Some(u) => Ok(Convert(u, x))
  }

  /** The loop: add each token's duration to `total`, left to right, returning the first error. */
  function Accumulate(ts: seq<Token>, total: Duration): Result<Duration>
    requires NumericRuns(ts)
    decreases |ts|
  {
    if ts == [] then
      Ok(total)
    else
      match TokenDuration(ts[0])
      case Err(e) => Err(e)
      case Ok(d) => Accumulate(ts[1..], total.Add(d))
  }

  /** `parse_duration(dur)`. */
  function ParseDuration(s: string): Result<Duration> {
    Accumulate(Tokens(s), Zero)
  }

  /** What the loop still has to do: the tokens of the scan from `pos`, added to `total`. */
  function ScanFrom(s: string, pos: nat, total: Duration): Result<Duration>
    requires pos <= |s|
  {
    Accumulate(TokensOf(s, Matches(s, pos)), total)
  }

  /** The loop over a list that starts with `t`: `t`'s error, or the rest with `t`'s duration added. */
  lemma AccumulateHead(t: Token, ts: seq<Token>, total: Duration)
    requires AllNumChars(t.run) && NumericRuns(ts)
    ensures NumericRuns([t] + ts)
    ensures TokenDuration(t).Err? ==> Accumulate([t] + ts, total) == Err(TokenDuration(t).error)
    ensures TokenDuration(t).Ok? ==> Accumulate([t] + ts, total) == Accumulate(ts, total.Add(TokenDuration(t).value))
  {
    assert ([t] + ts)[0] == t && ([t] + ts)[1..] == ts;
  }

  /** One pass of the loop over the scan from `pos`, whose next match is `m`. */
  lemma LoopStep(s: string, pos: nat, m: Match, total: Duration)
    requires pos <= |s| && NextMatch(s, pos) == Some(m)
    ensures m.letter < |s|
    ensures var t := TokenAt(s, m);
      TokenDuration(t).Err? ==> ScanFrom(s, pos, total) == Err(TokenDuration(t).error)
    ensures var t := TokenAt(s, m);
      TokenDuration(t).Ok? ==> ScanFrom(s, pos, total) == ScanFrom(s, m.letter + 1, total.Add(TokenDuration(t).value))
  {
    var rest := Matches(s, m.letter + 1);
    MatchesCons(s, pos, m);
    TokensOfCons(s, m, rest);
    AccumulateHead(TokenAt(s, m), TokensOf(s, rest), total);
  }

  /** The loop ends when the scan finds nothing more. */
  lemma LoopEnd(s: string, pos: nat, total: Duration)
    requires pos <= |s| && NextMatch(s, pos).None?
    ensures ScanFrom(s, pos, total) == Ok(total)
  {
  }

  /** `parse_duration` with the loop over `captures_iter` written out over the scanner. */
  method ParseDurationLoop(s: string) returns (r: Result<Duration>)
    ensures r == ParseDuration(s)
  {
    var duration := Zero;
    var pos := 0;
    while true
      invariant pos <= |s|
      invariant ScanFrom(s, pos, duration) == ParseDuration(s)
      decreases |s| - pos
    {
      var next := FindNext(s, pos);
      if next.None? {
        LoopEnd(s, pos, duration);
        return Ok(duration);
      }
      var m := next.value;
      LoopStep(s, pos, m, duration);
      var t := TokenAt(s, m);
      var num := ParseNumber(t.run);
      if num.None? {
        assert TokenDuration(t) == Err(InvalidNumber(t.run));
        return Err(InvalidNumber(t.run));
      }
      var unit := Resolve([t.letter]);
      if unit.None? {
        assert TokenDuration(t) == Err(UnknownUnit([t.letter]));
        return Err(UnknownUnit([t.letter]));
      }
      assert TokenDuration(t) == Ok(Convert(unit.value, num.value));
      duration := duration.Add(Convert(unit.value, num.value));
      pos := m.letter + 1;
    }
  }

  // ----- The reference meaning: per-token truncation, summed -----

  /** The seconds per unit that each letter names. */
  function LetterFactor(c: char): Option<nat> {
    if c == 'd' then Some(86400)
    else if c == 'h' then Some(3600)
    else if c == 'm' then Some(60)
    else if c == 's' then Some(1)
    else None
  }

  /** A token the parser accepts: its run is a number and its letter names a unit. */
  ghost predicate IsValid(t: Token) {
    IsFloatLiteral(t.run) && LetterFactor(t.letter).Some?
  }

  /** The error a rejected token reports: a bad number is reported before a bad unit. */
  ghost function ErrorOf(t: Token): ParseError {
    if !IsFloatLiteral(t.run) then InvalidNumber(t.run) else UnknownUnit([t.letter])
  }

  /** A valid token's contribution: its value times its unit factor, with the fraction dropped. */
  ghost function TruncatedSeconds(t: Token): nat
    requires AllNumChars(t.run) && IsValid(t)
  {
    ParseNumberAccepts(t.run);
    Seconds(Times(ParseNumber(t.run).value, LetterFactor(t.letter).value)).secs
  }

  /** The sum of the contributions of a list of valid tokens. */
  ghost function SumOfTruncations(ts: seq<Token>): nat
    requires NumericRuns(ts)
    requires forall i :: 0 <= i < |ts| ==> IsValid(ts[i])
    decreases |ts|
  {
    if ts == [] then 0 else TruncatedSeconds(ts[0]) + SumOfTruncations(ts[1..])
  }

  /** One token succeeds exactly when it is valid, with its truncated contribution, and fails with its error otherwise. */
  lemma TokenDurationMeaning(t: Token)
    requires AllNumChars(t.run)
    ensures TokenDuration(t).Ok? <==> IsValid(t)
    ensures TokenDuration(t).Ok? ==> TokenDuration(t).value.secs == TruncatedSeconds(t)
    ensures TokenDuration(t).Err? ==> TokenDuration(t).error == ErrorOf(t)
  {
    ParseNumberAccepts(t.run);
    match ParseNumber(t.run)
    case None =>
    case Some(x) =>
      match Resolve([t.letter])
      case None =>
        ResolveUnknown(t.letter);
      case Some(u) =>
        ResolveLetter(t.letter, u);
        ConvertTruncates(u, x);
  }

  /** Every token of a non-empty list is valid exactly when the first one and every later one is. */
  lemma AllValidCons(ts: seq<Token>)
    requires ts != []
    ensures (forall i :: 0 <= i < |ts| ==> IsValid(ts[i])) <==>
      IsValid(ts[0]) && forall i :: 0 <= i < |ts[1..]| ==> IsValid(ts[1..][i])
  {
    assert forall i :: 1 <= i < |ts| ==> ts[i] == ts[1..][i - 1];
  }

  /**
   * The loop succeeds exactly when every token is valid, and then adds the
   * per-token truncated contributions to the starting total.
   */
  lemma {:induction false} AccumulateSums(ts: seq<Token>, total: Duration)
    requires NumericRuns(ts)
    ensures Accumulate(ts, total).Ok? <==> forall i :: 0 <= i < |ts| ==> IsValid(ts[i])
    ensures (forall i :: 0 <= i < |ts| ==> IsValid(ts[i])) ==>
      Accumulate(ts, total) == Ok(Duration(total.secs + SumOfTruncations(ts)))
    decreases |ts|
  {
    if ts != [] {
      TokenDurationMeaning(ts[0]);
      AllValidCons(ts);
      if TokenDuration(ts[0]).Ok? {
        AccumulateSums(ts[1..], total.Add(TokenDuration(ts[0]).value));
      }
    }
  }

  /** The loop stops at the first invalid token and reports that token's error. */
  lemma {:induction false} AccumulateFirstError(ts: seq<Token>, total: Duration, i: nat)
    requires NumericRuns(ts)
    requires i < |ts| && !IsValid(ts[i])
    requires forall j :: 0 <= j < i ==> IsValid(ts[j])
    ensures Accumulate(ts, total) == Err(ErrorOf(ts[i]))
    decreases i
  {
    TokenDurationMeaning(ts[0]);
    if i > 0 {
      AccumulateFirstError(ts[1..], total.Add(TokenDuration(ts[0]).value), i - 1);
    }
  }

  /** `parse_duration` succeeds exactly when every token is valid, with the sum of the per-token truncations. */
  lemma ParseDurationSums(s: string)
    ensures ParseDuration(s).Ok? <==> forall i :: 0 <= i < |Tokens(s)| ==> IsValid(Tokens(s)[i])
    ensures ParseDuration(s).Ok? ==> ParseDuration(s).value.secs == SumOfTruncations(Tokens(s))
  {
    AccumulateSums(Tokens(s), Zero);
  }

  /** `parse_duration` reports the error of the first invalid token and nothing else. */
  lemma ParseDurationFirstError(s: string, i: nat)
    requires i < |Tokens(s)| && !IsValid(Tokens(s)[i])
    requires forall j :: 0 <= j < i ==> IsValid(Tokens(s)[j])
    ensures ParseDuration(s) == Err(ErrorOf(Tokens(s)[i]))
  {
    AccumulateFirstError(Tokens(s), Zero, i);
  }

  /** An input in which the pattern finds nothing is a zero duration, not an error. */
  lemma NoTokensIsZero(s: string)
    requires |Tokens(s)| == 0
    ensures ParseDuration(s) == Ok(Zero)
  {
    ParseDurationSums(s);
  }

  /** In particular, an input without digits or dots is a zero duration. */
  lemma NoNumCharIsZero(s: string)
    requires NoNumChar(s)
    ensures ParseDuration(s) == Ok(Zero)
  {
    TokensNoNumChar(s);
    NoTokensIsZero(s);
  }

  // ----- Composition -----

  /** The result of one token followed by the result of the rest of the input. */
  function Then(first: Result<Duration>, rest: Result<Duration>): Result<Duration> {
    match first
    case Err(e) => Err(e)
    case Ok(d) =>
      match rest
      case Err(e) => Err(e)
      case Ok(d') => Ok(d.Add(d'))
  }

  /** One successful pass of the loop moves the first token's duration into the total. */
  lemma AccumulateStep(ts: seq<Token>, total: Duration)
    requires NumericRuns(ts) && ts != [] && TokenDuration(ts[0]).Ok?
    ensures Accumulate(ts, total) == Accumulate(ts[1..], total.Add(TokenDuration(ts[0]).value))
  {
  }

  lemma ThenOkAdd(a: Duration, b: Duration, rest: Result<Duration>)
    ensures Then(Ok(a.Add(b)), rest) == Then(Ok(a), Then(Ok(b), rest))
  {
  }

  /** Starting the loop from a non-zero total only adds that total to a success. */
  lemma {:induction false} AccumulateFrom(ts: seq<Token>, total: Duration)
    requires NumericRuns(ts)
    ensures Accumulate(ts, total) == Then(Ok(total), Accumulate(ts, Zero))
    decreases |ts|
  {
    if ts != [] && TokenDuration(ts[0]).Ok? {
      var d := TokenDuration(ts[0]).value;
      AccumulateStep(ts, total);
      AccumulateStep(ts, Zero);
      assert Zero.Add(d) == d;
      AccumulateFrom(ts[1..], total.Add(d));
      AccumulateFrom(ts[1..], d);
      ThenOkAdd(total, d, Accumulate(ts[1..], Zero));
    }
  }

  /** A list of tokens: the first token's result, then the result of the rest. */
  lemma AccumulateCons(tok: Token, rest: seq<Token>)
    requires AllNumChars(tok.run) && NumericRuns(rest)
    ensures NumericRuns([tok] + rest)
    ensures Accumulate([tok] + rest, Zero) == Then(TokenDuration(tok), Accumulate(rest, Zero))
  {
    var ts := [tok] + rest;
    assert ts[0] == tok && ts[1..] == rest;
    if TokenDuration(tok).Ok? {
      AccumulateFrom(rest, Zero.Add(TokenDuration(tok).value));
    }
  }

  /** An input starting with a token: that token's result, then the result of the rest. */
  lemma ParseDurationLeadingToken(r: string, c: char, t: string)
    requires |r| > 0 && AllNumChars(r) && IsLower(c)
    ensures ParseDuration(r + [c] + t) == Then(TokenDuration(Token(r, c)), ParseDuration(t))
  {
    TokensLeadingToken(r, c, t);
    AccumulateCons(Token(r, c), Tokens(t));
  }

  /** The same, with one white-space character between the number and the letter. */
  lemma ParseDurationLeadingSpacedToken(r: string, w: char, c: char, t: string)
    requires |r| > 0 && AllNumChars(r) && IsSpace(w) && IsLower(c)
    ensures ParseDuration(r + [w, c] + t) == Then(TokenDuration(Token(r, c)), ParseDuration(t))
  {
    TokensLeadingSpacedToken(r, w, c, t);
    AccumulateCons(Token(r, c), Tokens(t));
  }

  /** A single white-space character between the number and the unit changes nothing. */
  lemma WhitespaceOptional(r: string, w: char, c: char, t: string)
    requires |r| > 0 && AllNumChars(r) && IsSpace(w) && IsLower(c)
    ensures ParseDuration(r + [w, c] + t) == ParseDuration(r + [c] + t)
  {
    TokensLeadingToken(r, c, t);
    TokensLeadingSpacedToken(r, w, c, t);
  }

  /**
   * Only the first letter of a unit word is captured: the rest of the word
   * is skipped, so `1d`, `1 day` and `1 days` mean the same.
   */
  lemma UnitWordIgnored(r: string, c: char, word: string, t: string)
    requires |r| > 0 && AllNumChars(r) && IsLower(c)
    requires NoNumChar(word)
    ensures ParseDuration(r + [c] + word + t) == ParseDuration(r + [c] + t)
  {
    calc {
      Tokens(r + [c] + word + t);
      { assert r + [c] + word + t == r + [c] + (word + t); }
      Tokens(r + [c] + (word + t));
      { TokensLeadingToken(r, c, word + t); }
      [Token(r, c)] + Tokens(word + t);
      { TokensSkipPrefix(word, t); }
      [Token(r, c)] + Tokens(t);
      { TokensLeadingToken(r, c, t); }
      Tokens(r + [c] + t);
    }
  }

  /** Text without digits or dots in front of the tokens changes nothing. */
  lemma LeadingTextIgnored(w: string, t: string)
    requires NoNumChar(w)
    ensures ParseDuration(w + t) == ParseDuration(t)
  {
    TokensSkipPrefix(w, t);
  }

  /**
   * A numeric run that is not followed by a letter, or by one white-space
   * character and a letter, is skipped as a whole: `12 3d` is `3d`, and
   * `5H` and `5  h` are no duration at all.
   */
  lemma DeadRunIgnored(r: string, c: char, t: string)
    requires |r| > 0 && AllNumChars(r)
    requires !IsNumChar(c) && !IsLower(c)
    requires !(IsSpace(c) && |t| > 0 && IsLower(t[0]))
    ensures ParseDuration(r + [c] + t) == ParseDuration(t)
  {
    TokensDeadRun(r, c, t);
  }
}

=== FILE: scanner.dfy ===
/**
 * The token scan of `parse_duration`: the matches of the pattern
 * `([\d\.]{1,})\s?([a-z])` that `captures_iter` yields, left to right and
 * without overlap, written as an explicit character-class scanner.
 */
module Scanner {
  import opened Chars
  import opened Optional

  /**
   * One match of the pattern inside a string `s`: the numeric run is
   * `s[start..runEnd]` and the captured unit letter is `s[letter]`; the match
   * covers `s[start..letter + 1]`.
   */
  datatype Match = Match(start: nat, runEnd: nat, letter: nat)

  /** The regular language of the pattern: `m` is a match of it inside `s`. */
  predicate IsMatch(s: string, m: Match) {
    && m.start < m.runEnd <= m.letter < |s|
    && (forall k :: m.start <= k < m.runEnd ==> IsNumChar(s[k]))
    && (m.letter == m.runEnd || (m.letter == m.runEnd + 1 && IsSpace(s[m.runEnd])))
    && IsLower(s[m.letter])
  }

  /** No match of the pattern starts at position `p` of `s`. */
  ghost predicate NoMatchAt(s: string, p: nat) {
    forall q: nat, l: nat :: !IsMatch(s, Match(p, q, l))
  }

  /**
   * The end of the maximal numeric run that starts at `i` (equal to `i`
   * when `s[i]` is not a digit or a dot).
   */
  function RunEnd(s: string, i: nat): (j: nat)
    requires i <= |s|
    ensures i <= j <= |s|
    ensures forall k :: i <= k < j ==> IsNumChar(s[k])
    ensures j == |s| || !IsNumChar(s[j])
    decreases |s| - i
  {
    if i < |s| && IsNumChar(s[i]) then RunEnd(s, i + 1) else i
  }

  /** Any position that ends an all-numeric stretch from `i` and is not followed by a numeric character is the run end. */
  lemma RunEndUnique(s: string, i: nat, j: nat)
    requires i <= j <= |s|
    requires forall k :: i <= k < j ==> IsNumChar(s[k])
    requires j == |s| || !IsNumChar(s[j])
    ensures RunEnd(s, i) == j
  {
  }

  /**
   * Greedy repetition never has to give characters back: the numeric run of
   * every match is the maximal run from its start, because the character
   * after a shorter run is still a digit or a dot.
   */
  lemma MatchRunIsMaximal(s: string, m: Match)
    requires IsMatch(s, m)
    ensures m.runEnd == RunEnd(s, m.start)
  {
    assert !IsNumChar(s[m.runEnd]);
    RunEndUnique(s, m.start, m.runEnd);
  }

  /** At most one match starts at any position, so leftmost-first and leftmost matching agree. */
  lemma MatchUnique(s: string, m1: Match, m2: Match)
    requires IsMatch(s, m1) && IsMatch(s, m2)
    requires m1.start == m2.start
    ensures m1 == m2
  {
    MatchRunIsMaximal(s, m1);
    MatchRunIsMaximal(s, m2);
  }

  /** A match can only start on a digit or a dot. */
  lemma NoMatchAtNonNum(s: string, p: nat)
    requires p >= |s| || !IsNumChar(s[p])
    ensures NoMatchAt(s, p)
  {
  }

  /** A match found by a pattern occurrence also proves that some match starts at its start. */
  lemma MatchRefutesNoMatch(s: string, m: Match)
    requires IsMatch(s, m)
    ensures !NoMatchAt(s, m.start)
  {
    assert IsMatch(s, Match(m.start, m.runEnd, m.letter));
  }

  /** A match whose run is preceded by a digit or a dot extends one character to the left. */
  lemma MatchExtendsLeft(s: string, m: Match)
    requires IsMatch(s, m)
    requires 0 < m.start && IsNumChar(s[m.start - 1])
    ensures IsMatch(s, Match(m.start - 1, m.runEnd, m.letter))
  {
  }

  /** A match starting inside a numeric run gives a match, with the same end, at the start of that run. */
  lemma RunMatchesFromStart(s: string, p: nat)
    requires p < |s| && IsNumChar(s[p])
    ensures forall p': nat, q: nat, l: nat :: p <= p' < RunEnd(s, p) && IsMatch(s, Match(p', q, l)) ==>
      IsMatch(s, Match(p, q, l))
  {
    var e := RunEnd(s, p);
    forall p': nat, q: nat, l: nat | p <= p' < e && IsMatch(s, Match(p', q, l))
      ensures IsMatch(s, Match(p, q, l))
    {
      MatchRunIsMaximal(s, Match(p', q, l));
      RunEndUnique(s, p', e);
    }
  }

  /** When the start of a numeric run fails to match, every position of the run fails. */
  lemma NoMatchInRun(s: string, p: nat)
    requires p < |s| && IsNumChar(s[p])
    requires NoMatchAt(s, p)
    ensures forall p': nat :: p <= p' < RunEnd(s, p) ==> NoMatchAt(s, p')
  {
    RunMatchesFromStart(s, p);
  }

  /** The attempt of the pattern at a position holding a digit or a dot. */
  function MatchFrom(s: string, p: nat): (r: Option<Match>)
    requires p < |s| && IsNumChar(s[p])
    ensures r.Some? ==> IsMatch(s, r.value) && r.value.start == p
    ensures r.None? ==> NoMatchAt(s, p)
  {
    var q := RunEnd(s, p);
    if q < |s| && IsLower(s[q]) then
      Some(Match(p, q, q))
    else if q + 1 < |s| && IsSpace(s[q]) && IsLower(s[q + 1]) then
      Some(Match(p, q, q + 1))
    else
      assert NoMatchAt(s, p) by {
        forall q': nat, l: nat | IsMatch(s, Match(p, q', l))
          ensures false
        {
          MatchRunIsMaximal(s, Match(p, q', l));
        }
      }
      None
  }

  /**
   * The leftmost match that starts at or after `from`: the scan skips
   * characters that cannot start a run and skips a whole run whose start
   * does not match.
   */
  function NextMatch(s: string, from: nat): (r: Option<Match>)
    requires from <= |s|
    ensures r.Some? ==> IsMatch(s, r.value) && from <= r.value.start
    ensures r.Some? ==> forall p: nat :: from <= p < r.value.start ==> NoMatchAt(s, p)
    ensures r.None? ==> forall p: nat :: from <= p ==> NoMatchAt(s, p)
    decreases |s| - from
  {
    if from == |s| then
      assert forall p: nat :: from <= p ==> NoMatchAt(s, p) by {
        forall p: nat | from <= p
          ensures NoMatchAt(s, p)
        {
          NoMatchAtNonNum(s, p);
        }
      }
      None
    else if !IsNumChar(s[from]) then
      NoMatchAtNonNum(s, from);
      NextMatch(s, from + 1)
    else
      match MatchFrom(s, from)
      case Some(m) => Some(m)
      case None =>
        NoMatchInRun(s, from);
        NextMatch(s, RunEnd(s, from))
  }

  /**
   * The declarative meaning of `captures_iter`: `ms` lists, left to right,
   * the leftmost match at or after `from`, then the leftmost match after the
   * letter of that one, and so on until no match is left.
   */
  ghost predicate IsLeftmostScan(s: string, from: nat, ms: seq<Match>)
    decreases |ms|
  {
    if ms == [] then
      forall p: nat :: from <= p ==> NoMatchAt(s, p)
    else
      && IsMatch(s, ms[0])
      && from <= ms[0].start
      && (forall p: nat :: from <= p < ms[0].start ==> NoMatchAt(s, p))
      && IsLeftmostScan(s, ms[0].letter + 1, ms[1..])
  }

  /** The scan from `from` to the end of the string. */
  function Matches(s: string, from: nat): (ms: seq<Match>)
    requires from <= |s|
    ensures IsLeftmostScan(s, from, ms)
    ensures forall i :: 0 <= i < |ms| ==> IsMatch(s, ms[i])
    decreases |s| - from
  {
    match NextMatch(s, from)
    case None => []
    case Some(m) => [m] + Matches(s, m.letter + 1)
  }

  /** The declarative scan admits exactly one list of matches. */
  lemma {:induction false} LeftmostScanUnique(s: string, from: nat, ms1: seq<Match>, ms2: seq<Match>)
    requires IsLeftmostScan(s, from, ms1) && IsLeftmostScan(s, from, ms2)
    ensures ms1 == ms2
    decreases |ms1|
  {
    if ms1 != [] {
      MatchRefutesNoMatch(s, ms1[0]);
    }
    if ms2 != [] {
      MatchRefutesNoMatch(s, ms2[0]);
    }
    if ms1 != [] && ms2 != [] {
      var m1, m2 := ms1[0], ms2[0];
      MatchUnique(s, m1, m2);
      LeftmostScanUnique(s, m1.letter + 1, ms1[1..], ms2[1..]);
      assert ms1 == [m1] + ms1[1..];
      assert ms2 == [m2] + ms2[1..];
    }
  }

  /** `Matches` is the one list the declarative scan admits. */
  lemma MatchesCharacterized(s: string, from: nat, ms: seq<Match>)
    requires from <= |s|
    ensures IsLeftmostScan(s, from, ms) <==> ms == Matches(s, from)
  {
    if IsLeftmostScan(s, from, ms) {
      LeftmostScanUnique(s, from, ms, Matches(s, from));
    }
  }

  /** Position `p` holds the first character of a maximal numeric run, or no run at all. */
  predicate AtRunStart(s: string, p: nat)
    requires p <= |s|
  {
    p == 0 || !IsNumChar(s[p - 1])
  }

  /** The next match starts at the first character of a maximal numeric run. */
  lemma NextMatchStartsRun(s: string, from: nat)
    requires from <= |s| && NextMatch(s, from).Some?
    requires AtRunStart(s, from)
    ensures AtRunStart(s, NextMatch(s, from).value.start)
  {
    var m := NextMatch(s, from).value;
    if m.start > from && IsNumChar(s[m.start - 1]) {
      MatchAfterRunChar(s, m);
    }
  }

  /** A scan that finds a match lists it first, then the scan from after its letter. */
  lemma MatchesCons(s: string, from: nat, m: Match)
    requires from <= |s| && NextMatch(s, from) == Some(m)
    ensures m.letter < |s|
    ensures Matches(s, from) == [m] + Matches(s, m.letter + 1)
  {
  }

  /** A match preceded by a digit or a dot means a match starts one position earlier. */
  lemma MatchAfterRunChar(s: string, m: Match)
    requires IsMatch(s, m) && 0 < m.start && IsNumChar(s[m.start - 1])
    ensures !NoMatchAt(s, m.start - 1)
  {
    MatchExtendsLeft(s, m);
    MatchRefutesNoMatch(s, Match(m.start - 1, m.runEnd, m.letter));
  }

  /** The first match of a leftmost scan from the start of a run starts a run. */
  lemma ScanHeadStartsRun(s: string, from: nat, m: Match)
    requires IsMatch(s, m) && from <= m.start
    requires forall p: nat :: from <= p < m.start ==> NoMatchAt(s, p)
    requires from <= |s| && AtRunStart(s, from)
    ensures AtRunStart(s, m.start)
  {
    if m.start > from && IsNumChar(s[m.start - 1]) {
      MatchAfterRunChar(s, m);
    }
  }

  /** Every match of a leftmost scan from the start of a run starts a run. */
  lemma {:induction false} ScanStartsRuns(s: string, from: nat, ms: seq<Match>, i: nat)
    requires from <= |s| && AtRunStart(s, from)
    requires IsLeftmostScan(s, from, ms) && i < |ms|
    ensures ms[i].start < |s| && AtRunStart(s, ms[i].start)
    decreases |ms|
  {
    ScanHeadStartsRun(s, from, ms[0]);
    if i > 0 {
      ScanStartsRuns(s, ms[0].letter + 1, ms[1..], i - 1);
    }
  }

  /** Every match the scan yields starts at the first character of a maximal numeric run. */
  lemma MatchesStartRuns(s: string, from: nat, i: nat)
    requires from <= |s|
    requires i < |Matches(s, from)|
    requires AtRunStart(s, from)
    ensures AtRunStart(s, Matches(s, from)[i].start)
  {
    ScanStartsRuns(s, from, Matches(s, from), i);
  }

  /**
   * The scan as a loop over characters: skip what cannot start a run,
   * measure a run, then look for the optional white space and the letter.
   */
  method FindNext(s: string, from: nat) returns (r: Option<Match>)
    requires from <= |s|
    ensures r == NextMatch(s, from)
  {
    var p := from;
    while p < |s|
      invariant from <= p <= |s|
      invariant NextMatch(s, p) == NextMatch(s, from)
      decreases |s| - p
    {
      if !IsNumChar(s[p]) {
        p := p + 1;
      } else {
        var q := p + 1;
        while q < |s| && IsNumChar(s[q])
          invariant p < q <= |s|
          invariant RunEnd(s, q) == RunEnd(s, p)
          decreases |s| - q
        {
          q := q + 1;
        }
        if q < |s| && IsLower(s[q]) {
          return Some(Match(p, q, q));
        }
        if q + 1 < |s| && IsSpace(s[q]) && IsLower(s[q + 1]) {
          return Some(Match(p, q, q + 1));
        }
        p := q;
      }
    }
    return None;
  }

  /** One captured token: the numeric run `cap[1]` and the unit letter `cap[2]`. */
  datatype Token = Token(run: string, letter: char)

  /** The captures of one match. */
  function TokenAt(s: string, m: Match): (t: Token)
    requires IsMatch(s, m)
    ensures |t.run| > 0 && AllNumChars(t.run) && IsLower(t.letter)
  {
    Token(s[m.start..m.runEnd], s[m.letter])
  }

  /** The captures of a list of matches, in order. */
  function TokensOf(s: string, ms: seq<Match>): (ts: seq<Token>)
    requires forall i :: 0 <= i < |ms| ==> IsMatch(s, ms[i])
    ensures |ts| == |ms|
    ensures forall i :: 0 <= i < |ts| ==> ts[i] == TokenAt(s, ms[i])
    ensures forall i :: 0 <= i < |ts| ==> |ts[i].run| > 0 && AllNumChars(ts[i].run) && IsLower(ts[i].letter)
    decreases |ms|
  {
    if |ms| == 0 then [] else [TokenAt(s, ms[0])] + TokensOf(s, ms[1..])
  }

  /** The tokens `captures_iter` yields over the whole input. */
  function Tokens(s: string): (ts: seq<Token>)
    ensures forall i :: 0 <= i < |ts| ==> |ts[i].run| > 0 && AllNumChars(ts[i].run) && IsLower(ts[i].letter)
  {
    TokensOf(s, Matches(s, 0))
  }
}

=== FILE: token_lemmas.dfy ===
/**
 * How the token list of an input is built from the token lists of its
 * parts: the scan from a position only looks forward, so a prefix that the
 * scan has consumed does not change the tokens found after it.
 */
module TokenLemmas {
  import opened Chars
  import opened Optional
  import opened Scanner

  /** The same match, `d` characters further right. */
  function ShiftMatch(m: Match, d: nat): Match {
    Match(m.start + d, m.runEnd + d, m.letter + d)
  }

  /** Every match of `ms`, `d` characters further right. */
  function Shift(ms: seq<Match>, d: nat): (r: seq<Match>)
    ensures |r| == |ms|
    ensures forall i :: 0 <= i < |ms| ==> r[i] == ShiftMatch(ms[i], d)
  {
    seq(|ms|, i requires 0 <= i < |ms| => ShiftMatch(ms[i], d))
  }

  /** Prepending `x` moves every match of `t` right by `|x|` and creates none inside `t`'s part. */
  lemma IsMatchShift(x: string, t: string, m: Match)
    ensures IsMatch(x + t, ShiftMatch(m, |x|)) <==> IsMatch(t, m)
  {
    var s := x + t;
    var d := |x|;
    if m.start < m.runEnd <= m.letter < |t| {
      assert forall k :: m.start <= k <= m.letter ==> s[k + d] == t[k];
      assert (forall k :: m.start <= k < m.runEnd ==> IsNumChar(t[k]))
        <==> (forall k :: m.start + d <= k < m.runEnd + d ==> IsNumChar(s[k])) by {
        forall k | m.start + d <= k < m.runEnd + d
          ensures s[k] == t[k - d]
        {
        }
      }
    }
  }

  /** No match starts at `p` in `t` exactly when none starts at `p + |x|` in `x + t`. */
  lemma NoMatchAtShift(x: string, t: string, p: nat)
    ensures NoMatchAt(x + t, p + |x|) <==> NoMatchAt(t, p)
  {
    var d := |x|;
    var s := x + t;
    var pd := p + d;
    if NoMatchAt(s, pd) {
      forall q: nat, l: nat
        ensures !IsMatch(t, Match(p, q, l))
      {
        IsMatchShift(x, t, Match(p, q, l));
      }
    }
    if NoMatchAt(t, p) {
      forall q: nat, l: nat
        ensures !IsMatch(s, Match(pd, q, l))
      {
        if q >= d && l >= d {
          IsMatchShift(x, t, Match(p, q - d, l - d));
        }
      }
    }
  }

  /** The declarative scan of `t` from `from`, shifted, is the declarative scan of `x + t` from `from + |x|`. */
  lemma {:induction false} ScanShift(x: string, t: string, from: nat, ms: seq<Match>)
    requires IsLeftmostScan(t, from, ms)
    ensures IsLeftmostScan(x + t, from + |x|, Shift(ms, |x|))
    decreases |ms|
  {
    var d := |x|;
    var start := if ms == [] then |t| + 1 else ms[0].start;
    forall p: nat | from + d <= p && (ms == [] || p < start + d)
      ensures NoMatchAt(x + t, p)
    {
      NoMatchAtShift(x, t, p - d);
    }
    if ms != [] {
      IsMatchShift(x, t, ms[0]);
      assert Shift(ms, d)[1..] == Shift(ms[1..], d);
      ScanShift(x, t, ms[0].letter + 1, ms[1..]);
    }
  }

  /** The scan of `x + t` from `|x| + from` finds the matches of `t` from `from`, shifted. */
  lemma MatchesShift(x: string, t: string, from: nat)
    requires from <= |t|
    ensures Matches(x + t, |x| + from) == Shift(Matches(t, from), |x|)
  {
    ScanShift(x, t, from, Matches(t, from));
    LeftmostScanUnique(x + t, |x| + from, Matches(x + t, |x| + from), Shift(Matches(t, from), |x|));
  }

  /** A slice of the `t` part of `x + t` is the corresponding slice of `t`. */
  lemma SliceShift(x: string, t: string, a: nat, b: nat)
    requires a <= b <= |t|
    ensures (x + t)[a + |x|..b + |x|] == t[a..b]
  {
    assert (x + t)[|x|..] == t;
    assert (x + t)[a + |x|..b + |x|] == (x + t)[|x|..][a..b];
  }

  /** A shifted match captures the same token. */
  lemma TokenAtShift(x: string, t: string, m: Match)
    requires IsMatch(t, m)
    ensures IsMatch(x + t, ShiftMatch(m, |x|))
    ensures TokenAt(x + t, ShiftMatch(m, |x|)) == TokenAt(t, m)
  {
    IsMatchShift(x, t, m);
    SliceShift(x, t, m.start, m.runEnd);
    assert (x + t)[m.letter + |x|] == t[m.letter];
  }

  /** The tokens of a shifted list of matches are the tokens of the list. */
  lemma TokensOfShift(x: string, t: string, ms: seq<Match>)
    requires forall i :: 0 <= i < |ms| ==> IsMatch(t, ms[i])
    ensures forall i :: 0 <= i < |ms| ==> IsMatch(x + t, Shift(ms, |x|)[i])
    ensures TokensOf(x + t, Shift(ms, |x|)) == TokensOf(t, ms)
  {
    var sms := Shift(ms, |x|);
    forall i | 0 <= i < |ms|
      ensures IsMatch(x + t, sms[i]) && TokenAt(x + t, sms[i]) == TokenAt(t, ms[i])
    {
      TokenAtShift(x, t, ms[i]);
    }
    assert TokensOf(x + t, sms) == TokensOf(t, ms);
  }

  /** The tokens of the scan of `x + t` from `|x|` are the tokens of `t`. */
  lemma TokensAfterPrefix(x: string, t: string)
    ensures TokensOf(x + t, Matches(x + t, |x|)) == Tokens(t)
  {
    MatchesShift(x, t, 0);
    TokensOfShift(x, t, Matches(t, 0));
  }

  /** Splitting off the first match of a scan splits off its first token. */
  lemma TokensOfCons(s: string, m: Match, rest: seq<Match>)
    requires IsMatch(s, m)
    requires forall i :: 0 <= i < |rest| ==> IsMatch(s, rest[i])
    ensures TokensOf(s, [m] + rest) == [TokenAt(s, m)] + TokensOf(s, rest)
  {
    assert ([m] + rest)[1..] == rest;
  }

  /** The scan from a position depends only on the scan's next match from there. */
  lemma MatchesFollowNext(s: string, a: nat, b: nat)
    requires a <= |s| && b <= |s|
    requires NextMatch(s, a) == NextMatch(s, b)
    ensures Matches(s, a) == Matches(s, b)
  {
  }

  /** Characters that cannot start a run are skipped by the scan. */
  lemma {:induction false} SkipNoNumChar(w: string, t: string, i: nat)
    requires i <= |w|
    requires NoNumChar(w)
    ensures NextMatch(w + t, i) == NextMatch(w + t, |w|)
    decreases |w| - i
  {
    if i < |w| {
      assert (w + t)[i] == w[i];
      SkipNoNumChar(w, t, i + 1);
    }
  }

  /** A prefix with no digit and no dot contributes no token and does not disturb the ones after it. */
  lemma TokensSkipPrefix(w: string, t: string)
    requires NoNumChar(w)
    ensures Tokens(w + t) == Tokens(t)
  {
    SkipNoNumChar(w, t, 0);
    MatchesFollowNext(w + t, 0, |w|);
    TokensAfterPrefix(w, t);
  }

  /** An input without any digit or dot has no token at all. */
  lemma TokensNoNumChar(t: string)
    requires NoNumChar(t)
    ensures Tokens(t) == []
  {
    TokensSkipPrefix(t, []);
    assert t + [] == t;
    assert Matches([], 0) == [];
  }

  /** Scanning `r + rest` from 0, where `r` is a whole numeric run: the run ends at `|r|`. */
  lemma LeadingRunEnd(r: string, rest: string)
    requires |r| > 0 && AllNumChars(r)
    requires rest == [] || !IsNumChar(rest[0])
    ensures RunEnd(r + rest, 0) == |r|
  {
    var s := r + rest;
    assert forall k :: 0 <= k < |r| ==> s[k] == r[k];
    RunEndUnique(s, 0, |r|);
  }

  /**
   * A numeric run directly followed by a lower-case letter is one token; the
   * scan resumes right after the letter.
   */
  lemma TokensLeadingToken(r: string, c: char, t: string)
    requires |r| > 0 && AllNumChars(r)
    requires IsLower(c)
    ensures Tokens(r + [c] + t) == [Token(r, c)] + Tokens(t)
  {
    var x := r + [c];
    var s := x + t;
    assert s == r + ([c] + t);
    LeadingRunEnd(r, [c] + t);
    assert s[0] == r[0] && s[|r|] == c;
    var m := Match(0, |r|, |r|);
    assert NextMatch(s, 0) == Some(m);
    assert Matches(s, 0) == [m] + Matches(s, |x|);
    TokensOfCons(s, m, Matches(s, |x|));
    assert s[0..|r|] == r;
    TokensAfterPrefix(x, t);
  }

  /**
   * A numeric run, one white-space character and a lower-case letter are one
   * token, the same token as without the white space.
   */
  lemma TokensLeadingSpacedToken(r: string, w: char, c: char, t: string)
    requires |r| > 0 && AllNumChars(r)
    requires IsSpace(w) && IsLower(c)
    ensures Tokens(r + [w, c] + t) == [Token(r, c)] + Tokens(t)
  {
    var x := r + [w, c];
    var s := x + t;
    assert s == r + ([w, c] + t);
    LeadingRunEnd(r, [w, c] + t);
    assert s[0] == r[0] && s[|r|] == w && s[|r| + 1] == c;
    var m := Match(0, |r|, |r| + 1);
    assert NextMatch(s, 0) == Some(m);
    assert Matches(s, 0) == [m] + Matches(s, |x|);
    TokensOfCons(s, m, Matches(s, |x|));
    assert s[0..|r|] == r;
    TokensAfterPrefix(x, t);
  }

  /**
   * A numeric run followed by a character that is neither a letter nor white
   * space before a letter yields no token: the whole run is skipped, as in
   * `12 3d`, `5H` or `5  h`.
   */
  lemma TokensDeadRun(r: string, c: char, t: string)
    requires |r| > 0 && AllNumChars(r)
    requires !IsNumChar(c) && !IsLower(c)
    requires !(IsSpace(c) && |t| > 0 && IsLower(t[0]))
    ensures Tokens(r + [c] + t) == Tokens(t)
  {
    var x := r + [c];
    var s := x + t;
    assert s == r + ([c] + t);
    LeadingRunEnd(r, [c] + t);
    assert s[0] == r[0] && s[|r|] == c;
    assert |t| > 0 ==> s[|r| + 1] == t[0];
    assert MatchFrom(s, 0) == None;
    assert NextMatch(s, 0) == NextMatch(s, |x|);
    MatchesFollowNext(s, 0, |x|);
    TokensAfterPrefix(x, t);
  }
}

=== FILE: units.dfy ===
/**
 * The unit dispatch of `parse_duration` and the conversion chain
 * `days` -> `hours` -> `minutes` -> `seconds`, on exact decimals.
 */
module Units {
  import opened Optional
  import opened Number

  datatype Unit = Day | Hour | Minute | Second

  /**
   * A `std::time::Duration` as this parser builds it: every duration comes
   * from `Duration::from_secs`, so the nanosecond part is always zero and
   * only the whole seconds are kept.
   */
  datatype Duration = Duration(secs: nat) {

    /** `+=` on durations. */
    function Add(other: Duration): Duration {
      Duration(secs + other.secs)
    }
  }

  /** `Duration::new(0, 0)`. */
  const Zero := Duration(0)

  /**
   * The match on the captured unit text: each unit is written as its letter,
   * its singular or its plural; anything else is an unknown unit.
   */
  function Resolve(unit: string): (r: Option<Unit>) {
    if unit == "d" || unit == "day" || unit == "days" then Some(Day)
    else if unit == "h" || unit == "hour" || unit == "hours" then Some(Hour)
    else if unit == "m" || unit == "minute" || unit == "minutes" then Some(Minute)
    else if unit == "s" || unit == "second" || unit == "seconds" then Some(Second)
    else None
  }

  /** The letter each unit is written with. */
  function Letter(u: Unit): char {
    match u
    case Day => 'd'
    case Hour => 'h'
    case Minute => 'm'
    case Second => 's'
  }

  /**
   * The unit text the pattern captures is always one letter, so the
   * singular and plural arms never fire: a one-letter capture resolves to a
   * unit exactly when it is that unit's letter.
   */
  lemma ResolveLetter(c: char, u: Unit)
    ensures Resolve([c]) == Some(u) <==> c == Letter(u)
  {
  }

  /** A one-letter capture is an unknown unit exactly when it is none of `d`, `h`, `m`, `s`. */
  lemma ResolveUnknown(c: char)
    ensures Resolve([c]).None? <==> c != 'd' && c != 'h' && c != 'm' && c != 's'
  {
  }

  /** How many seconds one of each unit is. */
  function Factor(u: Unit): nat {
    match u
    case Day => 86400
    case Hour => 3600
    case Minute => 60
    case Second => 1
  }

  /** `x * k` for a whole factor `k`, exactly. */
  function Times(x: Decimal, k: nat): Decimal {
    Decimal(x.mantissa * k, x.scale)
  }

  /** `n / 10^k`, dropping the last `k` decimal digits of `n` one at a time. */
  function DropDigits(n: nat, k: nat): nat {
    if k == 0 then n else DropDigits(n / 10, k - 1)
  }

  /** Dropping `k` digits is dividing by `10^k` and rounding down. */
  lemma {:induction false} DropDigitsIsFloor(n: nat, k: nat)
    ensures DropDigits(n, k) * Pow10(k) <= n < (DropDigits(n, k) + 1) * Pow10(k)
  {
    if k > 0 {
      var q := DropDigits(n / 10, k - 1);
      var p := Pow10(k - 1);
      DropDigitsIsFloor(n / 10, k - 1);
      assert q * p <= n / 10 < (q + 1) * p;
      assert n / 10 * 10 <= n < (n / 10 + 1) * 10;
      assert q * p * 10 <= n / 10 * 10 by {
        MulMono(q * p, n / 10, 10);
      }
      assert (n / 10 + 1) * 10 <= (q + 1) * p * 10 by {
        MulMono(n / 10 + 1, (q + 1) * p, 10);
      }
      MulAssoc(q, p, 10);
      MulAssoc(q + 1, p, 10);
    }
  }

  lemma MulMono(a: nat, b: nat, c: nat)
    requires a <= b
    ensures a * c <= b * c
  {
  }

  lemma MulAssoc(a: nat, b: nat, c: nat)
    ensures a * b * c == a * (b * c)
  {
  }

  /**
   * `seconds`: `Duration::from_secs(s as u64)`. The cast drops the fraction,
   * which for a non-negative number is the floor.
   */
  function Seconds(x: Decimal): Duration {
    Duration(DropDigits(x.mantissa, x.scale))
  }

  /** `seconds` keeps exactly the whole seconds of its argument. */
  lemma SecondsIsFloor(x: Decimal)
    ensures Seconds(x).secs * Pow10(x.scale) <= x.mantissa < (Seconds(x).secs + 1) * Pow10(x.scale)
  {
    DropDigitsIsFloor(x.mantissa, x.scale);
  }

  /** `minutes`: sixty seconds per minute. */
  function Minutes(x: Decimal): Duration {
    Seconds(Times(x, 60))
  }

  /** `hours`: sixty minutes per hour. */
  function Hours(x: Decimal): Duration {
    Minutes(Times(x, 60))
  }

  /** `days`: twenty-four hours per day. */
  function Days(x: Decimal): Duration {
    Hours(Times(x, 24))
  }

  /** The match arm's conversion for a resolved unit. */
  function Convert(u: Unit, x: Decimal): Duration {
    match u
    case Day => Days(x)
    case Hour => Hours(x)
    case Minute => Minutes(x)
    case Second => Seconds(x)
  }

  /**
   * The conversion chain multiplies exactly once by the unit's factor and
   * truncates once, at the end: the result is the floor of the value times
   * the factor.
   */
  lemma ConvertTruncates(u: Unit, x: Decimal)
    ensures Convert(u, x) == Seconds(Times(x, Factor(u)))
    ensures var d := Convert(u, x);
      d.secs * Pow10(x.scale) <= x.mantissa * Factor(u) < (d.secs + 1) * Pow10(x.scale)
  {
    SecondsIsFloor(Times(x, Factor(u)));
  }

  /** For a whole number of units the conversion loses nothing. */
  lemma ConvertWhole(u: Unit, n: nat)
    ensures Convert(u, Decimal(n, 0)).secs == n * Factor(u)
  {
    ConvertTruncates(u, Decimal(n, 0));
  }
}
